=== FILE: README.md ===
# UserAssist value decoding, modelled in Dafny

This project models the decoding core of `userassist_parser.py`, a parser for
the Windows UserAssist registry key. Under that key, each GUID subkey holds
values whose names are program paths (ROT-13 encoded) and whose data records
how often and how long each program ran.

The model covers the parser's two passes, one after the other:

- **parseUEME.** Each GUID bucket holds a 1612-byte `UEME_CTLSESSION` value.
  Decoding it gives the session aggregate. That aggregate has:
  - a header: session id, total launches, total switches and total user time;
  - three NMAX entries, each a run count, focus count, focus time and a UTF-16 path.
- **parseValues.** Every value of every bucket is dispatched on its byte length:
  - 16 bytes: the XP-era layout `<2iq`;
  - 72 bytes: the Windows 7 layout `<4i10fiqi`;
  - any other length: skipped.

  Each 72-byte record also gets:
  - its focus time broken into days, hours, minutes, seconds and milliseconds;
  - its last-used FILETIME rendered as ISO-8601 text;
  - the N value, R0 value and usage percentage, computed under the bucket's
    session aggregate. `searchUEMESessioninList` finds that aggregate.

Modules, in dependency order:

| file | module | what it holds |
|---|---|---|
| results.dfy | `Results` | `Option` and `Result` |
| seqs.dfy | `Seqs` | slice-of-slice lemma |
| bytes.dfy | `LittleEndian` | little-endian unsigned and two's-complement readers and writers |
| decimal.dfy | `Decimal` | zero-padded decimal fields |
| calendar.dfy | `Calendar` | proleptic Gregorian day numbers counted from 1601-01-01 |
| records.dfy | `Records` | the 16- and 72-byte layouts with encoders |
| session.dfy | `Session` | the 1612-byte aggregate, its UTF-16 path fields, the session lookup |
| duration.dfy | `Duration` | convertFocusTimetoHumanReadable |
| stats.dfy | `Stats` | launch and switch averages, N value, R0 value, usage percentage |
| filetime.dfy | `Filetime` | filetime_to_datetime |
| dispatch.dfy | `Dispatch` | the length dispatcher, parseValues, parseUEME, main's two passes |

The source keeps its results in two global lists, `KEYS` and `UEME`. In the
model, these are returned sequences.

Each exception the modelled code raises on well-formed UTF-16 paths is an
`Err` value of `Dispatch.ParseError`:

- `MissingCtlSession`: KeyError for a missing `UEME_CTLSESSION` value.
- `BadCtlSessionSize`: struct.error for a value that is not 1612 bytes.
- `NoSession`: UnboundLocalError for a GUID without an aggregate.
- `ZeroMostUsedNValue`, `ZeroUserTime`: ZeroDivisionError for a zero divisor.
- `DateOutOfRange`: OverflowError for a year outside 1..9999.
- `UndefinedGetName`: NameError from `getName`. Only the as-written
  dispatcher raises it; the two passes run the corrected dispatcher (see
  Findings).

UnicodeDecodeError from a path field that is not valid UTF-16 (lines
209-211) and the IndexError of `KEYS[0]` when no row was produced (line 45,
in the CSV output) are outside the model.

Bytes are integers in 0..255. Integer fields are the two's-complement values
of their widths. The four-byte float slots are kept as opaque words. Statistics
are `real`.

## Model

| member | source | states |
|---|---|---|
| LittleEndian.ToSigned | userassist_parser.py:155 | a signed struct field is the unsigned bit pattern reinterpreted: in [-half, half) and equal to the pattern or the pattern minus 2·half |
| LittleEndian.FromSigned | userassist_parser.py:155 | every signed value has a bit pattern below 2·half that reads back as that value |
| LittleEndian.SignedRoundTrip | userassist_parser.py:155 | reinterpreting a bit pattern as signed and back returns the pattern |
| LittleEndian.UintLERoundTrip | userassist_parser.py:155 | writing a number in `len` little-endian bytes and reading it back gives the number |
| LittleEndian.EncodeUintLERoundTrip | userassist_parser.py:155 | reading bytes as a number and writing it at the same width gives the bytes back |
| LittleEndian.Int32RoundTrip | userassist_parser.py:155 | the int32 read at an offset holding the encoding of x is x |
| LittleEndian.Int64RoundTrip | userassist_parser.py:155 | the int64 read at an offset holding the encoding of x is x |
| LittleEndian.Word32RoundTrip | userassist_parser.py:161 | an opaque 4-byte slot reads back as the word written |
| LittleEndian.Uint16RoundTrip | userassist_parser.py:209 | a UTF-16LE code unit reads back as the unit written |
| LittleEndian.EncodeInt32RoundTrip | userassist_parser.py:155 | re-encoding the int32 read from four bytes gives those four bytes |
| LittleEndian.EncodeInt64RoundTrip | userassist_parser.py:155 | re-encoding the int64 read from eight bytes gives those eight bytes |
| LittleEndian.EncodeWord32RoundTrip | userassist_parser.py:161 | re-encoding a slot word gives its four bytes |
| LittleEndian.EncodeUint16RoundTrip | userassist_parser.py:209 | re-encoding a code unit gives its two bytes |
| Records.DecodeWordsAt | userassist_parser.py:161 | slot i of a decoded run of words is the word at byte offset 4·i |
| Records.WordsRoundTrip | userassist_parser.py:161 | decoding encoded slot words returns them in order |
| Records.WordBytesRoundTrip | userassist_parser.py:161 | re-encoding the decoded words of a byte run gives the run back |
| Records.LegacyRoundTrip | userassist_parser.py:155-158 | `DecodeLegacy` inverts `EncodeLegacy`: decoding the 16-byte `<2iq` encoding of (session id, count, ticks) returns exactly those values |
| Records.LegacyBytesRoundTrip | userassist_parser.py:155 | `DecodeLegacy` loses nothing: every 16-byte value is the encoding of the record decoded from it |
| Records.ModernFieldOffsets | userassist_parser.py:161 | the fixed `<4i10fiqi` offsets: session id 0, run count 4, focus count 8, focus time 12, slot i at 16+4i, rewrite counter 56, last used (int64) 60, trailing 68 |
| Records.ModernRoundTrip | userassist_parser.py:161 | `DecodeModern` inverts `EncodeModern`: decoding the 72-byte encoding of a modern record returns every field, with exactly ten slots |
| Records.ModernBytesRoundTrip | userassist_parser.py:161 | `DecodeModern` loses nothing: every 72-byte value is the encoding of the record decoded from it |
| Session.CodeUnitsRoundTrip | userassist_parser.py:209-211 | reading a path field as code units loses nothing: encoding the units gives the field's bytes back |
| Session.UnitsRoundTrip | userassist_parser.py:209-211 | reading the code units of encoded units returns them |
| Session.TakeUntilNul | userassist_parser.py:209-211 | `.split('\x00', 1)[0]`: a prefix of the units, with no zero unit, that stops at the first zero unit or at the end |
| Session.TakeUntilNulUnique | userassist_parser.py:209-211 | these three properties determine the cut prefix |
| Session.PaddingIrrelevant | userassist_parser.py:209-211 | whatever follows the first zero unit never changes the path |
| Session.DecodePath | userassist_parser.py:209-211 | a 520-byte path is a prefix of the 260 units: all 260, or the units before the first zero unit |
| Session.PathRoundTrip | userassist_parser.py:209-211 | a path of at most 260 non-zero units survives encoding into a zero-padded field and decoding |
| Session.GroupRoundTrip | userassist_parser.py:206-215 | `DecodeGroup` inverts `EncodeGroup`: an NMAX group read where its encoding sits gives back its run count, focus count, focus time and path |
| Session.GroupOffset | userassist_parser.py:206 | each of the three NMAX groups lies wholly inside the 1612-byte blob |
| Session.DecodeAggregate | userassist_parser.py:206-215 | the unpack succeeds exactly for 1612 bytes; the session id, launches, switches and user time are the int32s at offsets 0, 4, 8 and 12, and NMAX entry k is the group at offset 16+532k |
| Session.AggregateRoundTrip | userassist_parser.py:206-215 | decoding a 1612-byte blob built from a header and three NMAX entries returns them, in slot order |
| Session.AggregateHeaderRoundTrip | userassist_parser.py:206-207 | the decoded header is the encoded session id, launches, switches and user time |
| Session.AggregateGroupsRoundTrip | userassist_parser.py:213-215 | every decoded NMAX entry is the encoded one in the same slot |
| Session.AggregateGroupRoundTrip | userassist_parser.py:213-215 | NMAX slot k decodes to the entry encoded in slot k |
| Session.AggregateLayout | userassist_parser.py:206 | where the header fields and the three groups lie in an encoded aggregate |
| Session.SearchSession | userassist_parser.py:222-229 | the lookup fails exactly when no entry has the GUID; otherwise it returns the aggregate of an entry with that GUID that no later entry shares |
| Session.LastAppendedWins | userassist_parser.py:226-229 | the aggregate appended last for a GUID is the one found |
| Duration.FocusBreakdown | userassist_parser.py:185-193 | 0 ≤ ms < 1000, 0 ≤ s < 60, 0 ≤ min < 60, 0 ≤ h < 24, and (((d·24+h)·60+min)·60+s)·1000+ms is the focus time |
| Duration.BreakdownUnique | userassist_parser.py:185-193 | any normalized breakdown is the one computed from the milliseconds it denotes |
| Stats.LaunchAvg | userassist_parser.py:136-139 | 0 when there are no launches, else the value whose product with the launches is the user time |
| Stats.SwitchAvg | userassist_parser.py:141-144 | 0 when there are no switches, else the value whose product with the switches is the user time |
| Stats.R0Value | userassist_parser.py:165 | defined exactly when the most used N value is nonzero, and then R0 times it is N |
| Stats.UsagePercentage | userassist_parser.py:166 | defined exactly when the total user time is nonzero, and then usage times it is N |
| Stats.NValueWithoutLaunches | userassist_parser.py:136-164 | `NValue`, the N formula of line 164: without launches the run-count term drops out of N |
| Stats.NValueWithoutAverages | userassist_parser.py:136-164 | `NValue`: without launches and switches N is the focus time alone |
| Stats.MostUsedIgnoresOtherSlots | userassist_parser.py:146 | `MostUsedNValue`, line 146's N of NMAX slot 2: the most used N value depends only on the totals and NMAX slot 2 |
| Stats.MostUsedHasUnitR0 | userassist_parser.py:146-165 | an application with NMAX slot 2's counters has R0 value 1 |
| Calendar.MonthTableConsistent | userassist_parser.py:243 | the cumulative month table agrees with the month lengths and the year length |
| Calendar.DaysBeforeNextYear | userassist_parser.py:243 | the day count grows by exactly one year's length per year |
| Calendar.DaysBeforeYearMonotone | userassist_parser.py:243 | later years start at least 365 days per year later |
| Calendar.MonthContaining | userassist_parser.py:243 | finds the month whose span holds the day of the year |
| Calendar.YearAndDay | userassist_parser.py:243 | splits a day number into a year and a day of that year that lies in the year |
| Calendar.DateOf | userassist_parser.py:243 | the date of a day number is valid and has that day number |
| Calendar.DayNumberInjective | userassist_parser.py:243 | distinct valid dates have distinct day numbers |
| Calendar.DateOfDayNumber | userassist_parser.py:243 | DateOf inverts DayNumber on valid dates |
| Calendar.YearRange | userassist_parser.py:243 | a day number has a year in 1..9999 exactly when it lies between the starts of year 1 and year 10000 |
| Decimal.FixedDigits | userassist_parser.py:244 | a zero-padded field has exactly its width, in decimal digits |
| Decimal.FixedDigitsRoundTrip | userassist_parser.py:244 | reading a zero-padded field back gives the number written |
| Filetime.RoundedMicros | userassist_parser.py:240-243 | `timedelta`'s rounding: the microseconds nearest to the ticks, within 5 ticks, ties to even |
| Filetime.RoundedMicrosUnique | userassist_parser.py:240-243 | nearest with ties to even determines the rounded microseconds |
| Filetime.ToDateTime | userassist_parser.py:237-243 | a valid date-time whose seconds since 1601-01-01 and microseconds make up the rounded microseconds of the ticks |
| Filetime.SameInstantSameDateTime | userassist_parser.py:243 | two valid date-times at the same microsecond after 1601-01-01 are equal, so no two share their ticks |
| Filetime.ClockOf | userassist_parser.py:243 | hours, minutes and seconds in range that sum back to the second of the day |
| Filetime.ToDateTimeOfTicks | userassist_parser.py:237-243 | converting the ticks of any valid date-time gives that date-time back |
| Filetime.RenderIso | userassist_parser.py:244 | `isoformat()` + `Z`: 20 characters when the microseconds are 0 and 27 otherwise, ending in `Z` |
| Filetime.ParseRenderIso | userassist_parser.py:244 | the rendered text reads back as the date-time it renders |
| Filetime.ToDateTimeDay | userassist_parser.py:240-243 | the date is the day of the floor of the rounded microseconds in whole days after the epoch |
| Filetime.FiletimeToIso | userassist_parser.py:232-244 | every result ends in `Z` |
| Filetime.FiletimeToIsoDefined | userassist_parser.py:243 | the conversion fails (OverflowError) exactly when the day of the rounded ticks leaves 0001-01-01 .. 9999-12-31 |
| Filetime.DatetimeSpan | userassist_parser.py:243 | 0001-01-01 and 10000-01-01 are days -584388 and 3067671 of the FILETIME calendar |
| Filetime.FiletimeToIsoReadsBack | userassist_parser.py:237-244 | the returned text reads back as the date-time the rounded ticks denote |
| Filetime.FiletimeToIsoOfTicks | userassist_parser.py:237-244 | the FILETIME of any date-time in years 1..9999 renders as that date-time |
| Filetime.MidnightRendering | userassist_parser.py:244 | midnight renders with a zero clock and no fraction |
| Filetime.NewYearRendering | userassist_parser.py:244 | midnight on 1 January renders as the four year digits then `-01-01T00:00:00Z` |
| Filetime.EpochRendering | userassist_parser.py:237-244 | FILETIME 0 renders as `1601-01-01T00:00:00Z` |
| Filetime.RoundingCarriesIntoSecond | userassist_parser.py:240-243 | 9999999 ticks round up to the next second, 1601-01-01T00:00:01 |
| Filetime.RoundingCarriesBackToEpoch | userassist_parser.py:240-243 | -1 tick rounds to the epoch itself, not into the previous day |
| Filetime.RoundingShowsFraction | userassist_parser.py:240-244 | 6 ticks round to one microsecond, so a fraction is rendered |
| Filetime.UnixEpochRendering | userassist_parser.py:237-244 | FILETIME 116444736000000000 renders as `1970-01-01T00:00:00Z` |
| Dispatch.LegacyValueRaisesAsWritten | userassist_parser.py:154-158 | `DecodeValueAsWritten`, the loop body as written: as written, every 16-byte value raises NameError; all other lengths behave as in the corrected dispatcher |
| Dispatch.DecodeModernValue | userassist_parser.py:160-168 | a 72-byte value yields a modern row with the bucket's GUID, the value's name and the record decoded from its bytes, or raises one of the three errors of lines 165, 166 and 243, naming the GUID and the value |
| Dispatch.DecodeValue | userassist_parser.py:153-178 | no row exactly for lengths other than 16 and 72; a row has the value's name, the layout its length selects and the record decoded from its bytes; only 72-byte values raise |
| Dispatch.LegacyDispatch | userassist_parser.py:154-158 | a 16-byte value becomes one legacy row with exactly the encoded values, raw ticks and blank (not 0) focus cells |
| Dispatch.ModernValueErrors | userassist_parser.py:160-168 | a 72-byte value raises exactly on a zero most used N value, then a zero user time, then a year outside 1..9999, and otherwise yields a row |
| Dispatch.ModernValueRow | userassist_parser.py:160-172 | the row of a 72-byte value carries its record, focus breakdown, ISO last-used time, N, R0 and usage |
| Dispatch.ModernDispatch | userassist_parser.py:160-172 | the row of a 72-byte encoding of a record carries exactly that record |
| Dispatch.SkipDispatch | userassist_parser.py:173-178 | any other length, the 1612-byte UEME_CTLSESSION value included, yields no row and no error |
| Dispatch.DecodedRow | userassist_parser.py:153-178 | no row exactly for other lengths; a row has the value's name and the layout its length selects |
| Dispatch.Kept | userassist_parser.py:151-178 | a value of the bucket is decoded exactly when it is 16 or 72 bytes long, and nothing else is |
| Dispatch.KeptSingle | userassist_parser.py:151-178 | one value is kept exactly when it is 16 or 72 bytes long; with KeptAppend this fixes which values are kept and in what order |
| Dispatch.KeptAppend | userassist_parser.py:151-178 | the dispatcher keeps values in input order: keeping commutes with concatenation |
| Dispatch.DecodeValues | userassist_parser.py:151-178 | one bucket's rows correspond one to one, in order, to its 16- and 72-byte values, each row holding its value's name and the record decoded from its bytes; its errors are never a session error |
| Dispatch.DecodeValuesRowAt | userassist_parser.py:151-178 | row i of a bucket is the row the dispatcher makes of the bucket's i-th 16- or 72-byte value, with its GUID, statistics and date as well as its record |
| Dispatch.DecodeValuesSucceeds | userassist_parser.py:151-178 | a bucket's values decode exactly when each value does |
| Dispatch.DecodeValuesFirstError | userassist_parser.py:151-178 | a bucket's error is the error of its first value that raises |
| Dispatch.ParseBucketsRows | userassist_parser.py:124-178 | `ParseBuckets`, parseValues as a function: the rows of parseValues correspond one to one, in order, to the 16- and 72-byte values of all buckets, each with its name and decoded record |
| Dispatch.ParseBucketsFirstError | userassist_parser.py:124-178 | parseValues raises the error of the first bucket that does not get through: UnboundLocalError when its GUID has no aggregate, else its values' error; later buckets do not matter |
| Dispatch.ParseBucketsSucceeds | userassist_parser.py:124-178 | parseValues succeeds exactly when every bucket's GUID has an aggregate and all its values decode under it |
| Dispatch.ParseBucketsNoSession | userassist_parser.py:124-131 | UnboundLocalError names a bucket GUID without an aggregate; it cannot occur when every GUID has one; success implies every GUID has one |
| Dispatch.UaTypeOf | userassist_parser.py:118-162 | `ua_type` is -1 exactly when nothing was decoded, otherwise 0 when the last decoded value is 16 bytes and 1 when it is 72 bytes |
| Dispatch.UaTypeAppend | userassist_parser.py:156-162 | after more values, the last decoded one decides `ua_type` |
| Dispatch.DecodeBucket | userassist_parser.py:151-178 | the inner loop produces the bucket's rows or first error, and leaves `ua_type` set by the bucket's last decoded value |
| Dispatch.ParseValues | userassist_parser.py:112-179 | the loop returns the rows of every bucket and `ua_type` of the last decoded value, or the first exception |
| Dispatch.FindValue | userassist_parser.py:205 | `dictionary["UEME_CTLSESSION"]` fails exactly when no value has the name |
| Dispatch.FindValueLastWins | userassist_parser.py:205 | the lookup returns the last value with the name, as later dict assignments overwrite earlier ones |
| Dispatch.ParseUeme | userassist_parser.py:196-219 | on success one UEME entry per bucket; its only errors are KeyError and struct.error |
| Dispatch.ParseUemeFirstError | userassist_parser.py:201-219 | parseUEME raises the KeyError or struct.error of the first bucket whose UEME_CTLSESSION is missing or not 1612 bytes, whatever later buckets hold |
| Dispatch.SessionOf | userassist_parser.py:205-218 | a bucket's entry exists exactly when its UEME_CTLSESSION value exists and has 1612 bytes; it is the GUID with that value's aggregate; otherwise KeyError or struct.error |
| Dispatch.ParseUemeSucceeds | userassist_parser.py:201-219 | parseUEME succeeds exactly when every bucket holds a 1612-byte UEME_CTLSESSION |
| Dispatch.ParseUemeEntry | userassist_parser.py:201-219 | entry i of the UEME list is bucket i's GUID with the aggregate decoded from that bucket's UEME_CTLSESSION |
| Dispatch.SessionsCoverBuckets | userassist_parser.py:124-219 | after parseUEME every bucket's GUID has an aggregate, so the lookup never raises |
| Dispatch.OwnAggregateUsed | userassist_parser.py:124-229 | with distinct GUIDs, each bucket's statistics use the aggregate of its own UEME_CTLSESSION |
| Dispatch.Run | userassist_parser.py:33-35 | main raises parseUEME's error if it fails, else parseValues' error if that fails, else returns the UEME list, the rows of all decoded values in order and their `ua_type`; it never raises UnboundLocalError |

## Left out

- Registry access (`createDictionary`, lines 62-109), the `ntuser.dat` file name check, CSV and JSON output, argparse, logging and printing. All of this is I/O or a foreign library. The model starts from buckets of already-read values.
- ROT-13 decoding of value names (line 106) is a `codecs` call. Names are taken as already decoded.
- Bucket values are a sequence in enumeration order, where the source builds a dict. A registry key cannot hold two values of one name, and ROT-13 is a bijection, so the dict adds nothing but the last-wins lookup, which `Dispatch.FindValue` models.
- The ten float32 slots are opaque 32-bit words. Their IEEE-754 values are not interpreted.
- Stats.LaunchAvg: statistics are exact `real` arithmetic, not double-precision floats. Float rounding is not modelled.
- Filetime.ToDateTime: the model rounds the exact quotient ticks / 10 to the nearest microsecond, ties to even. The source first divides as a double (`filetime / 10_000_000`), and `timedelta` rounds that double. The double is off by up to half an ulp of the seconds: under 0.1 µs near 1629 (2^53 ticks), about 1 µs today, and up to about 15 µs near year 9999. Ties (ticks ending in 5) can round either way at any size, depending on which way the division errs, where the model rounds them to even. The error can change the microseconds, and at a second boundary also the second, the day, whether a fraction is shown at all, and which ticks fall inside the year-10000 limit of `FiletimeToIsoDefined`.
- Filetime.FiletimeToIso: its own contract states only the trailing `Z`. The exact text is stated by `FiletimeToIsoOfTicks`, `FiletimeToIsoReadsBack` and `FiletimeToIsoDefined`.
- `bytes.decode('utf-16')`: BOM detection, surrogate pairs and decode errors are not modelled. A path is the UTF-16LE code units before the first zero unit.
- The `Focus Time (Human-Readable)` column is an f-string over the five components (line 168). The model keeps the `Duration.Breakdown` itself.
- `getName` is not part of this model: it is defined nowhere in the file. The corrected legacy row has no `Name` column (see Findings).
- The `except: pass` around the most used N value (lines 145-148) can never fire. A session always has three NMAX entries of integers, and a missing session already raised at line 229. So the value is always defined in the model.
- Dispatch.DecodeValue: models the corrected 16-byte branch. As written, any 16-byte value raises NameError at line 157 (see Findings).
- Dispatch.DecodeValuesRowAt: models the corrected 16-byte branch. As written, any 16-byte value raises NameError at line 157 (see Findings).
- Dispatch.DecodeValues: models the corrected 16-byte branch. As written, any 16-byte value raises NameError at line 157 (see Findings).
- Dispatch.DecodeValuesSucceeds: models the corrected 16-byte branch. As written, any 16-byte value raises NameError at line 157 (see Findings).
- Dispatch.DecodeValuesFirstError: models the corrected 16-byte branch. As written, any 16-byte value raises NameError at line 157 (see Findings).
- Dispatch.ParseBucketsRows: models the corrected 16-byte branch. As written, any 16-byte value raises NameError at line 157 (see Findings).
- Dispatch.ParseBucketsFirstError: models the corrected 16-byte branch. As written, any 16-byte value raises NameError at line 157 (see Findings).
- Dispatch.ParseBucketsSucceeds: models the corrected 16-byte branch. As written, any 16-byte value raises NameError at line 157 (see Findings).
- Dispatch.UaTypeOf: models the corrected 16-byte branch. As written, any 16-byte value raises NameError at line 157 (see Findings).
- Dispatch.DecodeBucket: models the corrected 16-byte branch. As written, any 16-byte value raises NameError at line 157 (see Findings).
- Dispatch.ParseValues: models the corrected 16-byte branch. As written, any 16-byte value raises NameError at line 157 (see Findings).
- Dispatch.Run: models the corrected 16-byte branch. As written, any 16-byte value raises NameError at line 157 (see Findings).
- As written, `ua_type` 0 is never returned, because every 16-byte value raises first.
- `ua_type` is assigned at lines 156 and 162 before a record's statistics can raise. The model drops `ua_type` on any error, since the exception ends the program before it is read.

## Findings

| source | as written | input that shows it | evidently intended | confidence | as-written member | corrected member |
|---|---|---|---|---|---|---|
| userassist_parser.py:157 | the 16-byte branch calls `getName(v)`, which the module neither defines nor imports, so it raises NameError | any bucket holding a 16-byte value, e.g. 16 zero bytes | decode the `<2iq` record into a row with the value's path, raw ticks and blank focus cells | high (not executed) | Dispatch.DecodeValueAsWritten, Dispatch.LegacyValueRaisesAsWritten | Dispatch.DecodeValue, Dispatch.LegacyDispatch |

=== FILE: bytes.dfy ===
/** Little-endian fixed-width integers over byte sequences, as read by
    Python's `struct` with a `<` prefix: `i` (int32), `q` (int64), and the
    unsigned 16-bit code units of a UTF-16LE string. */
module LittleEndian {
  import opened Seqs

  type byte = b: int | 0 <= b < 256
  type uint16 = x: int | 0 <= x < 0x1_0000
  type uint32 = x: int | 0 <= x < 0x1_0000_0000
  type int32 = x: int | -0x8000_0000 <= x < 0x8000_0000
  type int64 = x: int | -0x8000_0000_0000_0000 <= x < 0x8000_0000_0000_0000

  /** 256 to the power n: one more than the largest unsigned value of n bytes. */
  function Pow256(n: nat): (r: nat)
    ensures r > 0
  {
    if n == 0 then 1 else 256 * Pow256(n - 1)
  }

  lemma Pow256Widths()
    ensures Pow256(2) == 0x1_0000
    ensures Pow256(4) == 0x1_0000_0000
    ensures Pow256(8) == 0x1_0000_0000_0000_0000
  {
    assert Pow256(2) == 0x1_0000;
    assert Pow256(4) == 256 * 256 * Pow256(2);
    assert Pow256(8) == 256 * 256 * 256 * 256 * Pow256(4);
  }

  /** The unsigned value of `bs`, least significant byte first. */
  function UintLE(bs: seq<byte>): (n: nat)
    ensures n < Pow256(|bs|)
  {
    if |bs| == 0 then 0 else bs[0] + 256 * UintLE(bs[1..])
  }

  /** The `len` bytes of `n`, least significant byte first. */
  function EncodeUintLE(n: nat, len: nat): (r: seq<byte>)
    requires n < Pow256(len)
    ensures |r| == len
  {
    if len == 0 then [] else [n % 256] + EncodeUintLE(n / 256, len - 1)
  }

  /** Encoding and then reading an unsigned value gives it back. */
  lemma {:induction false} UintLERoundTrip(n: nat, len: nat)
    requires n < Pow256(len)
    ensures UintLE(EncodeUintLE(n, len)) == n
  {
    if len > 0 {
      var e := EncodeUintLE(n, len);
      assert e[1..] == EncodeUintLE(n / 256, len - 1);
      UintLERoundTrip(n / 256, len - 1);
    }
  }

  /** Reading bytes and encoding the value at the same width gives the bytes back. */
  lemma {:induction false} EncodeUintLERoundTrip(bs: seq<byte>)
    ensures EncodeUintLE(UintLE(bs), |bs|) == bs
  {
    if |bs| > 0 {
      EncodeUintLERoundTrip(bs[1..]);
    }
  }

  /** Two's-complement reinterpretation of a `bits`-wide unsigned value. */
  function ToSigned(u: nat, half: nat): (x: int)
    requires u < 2 * half
    ensures -(half as int) <= x < half
    ensures x == u || x + 2 * half == u
  {
    if u < half then u else u - 2 * half
  }

  /** The unsigned bit pattern of a two's-complement value. */
  function FromSigned(x: int, half: nat): (u: nat)
    requires -(half as int) <= x < half
    ensures u < 2 * half
    ensures ToSigned(u, half) == x
  {
    if x >= 0 then x else x + 2 * half
  }

  lemma SignedRoundTrip(u: nat, half: nat)
    requires u < 2 * half
    ensures FromSigned(ToSigned(u, half), half) == u
  {
  }

  /** struct `i`: the int32 stored at bs[off..off+4]. */
  function Int32At(bs: seq<byte>, off: nat): (x: int32)
    requires off + 4 <= |bs|
  {
    Pow256Widths();
    ToSigned(UintLE(bs[off..off + 4]), 0x8000_0000)
  }

  /** struct `q`: the int64 stored at bs[off..off+8]. */
  function Int64At(bs: seq<byte>, off: nat): (x: int64)
    requires off + 8 <= |bs|
  {
    Pow256Widths();
    ToSigned(UintLE(bs[off..off + 8]), 0x8000_0000_0000_0000)
  }

  /** A 4-byte word at bs[off..off+4], kept as its unsigned bit pattern. */
  function Word32At(bs: seq<byte>, off: nat): (w: uint32)
    requires off + 4 <= |bs|
  {
    Pow256Widths();
    UintLE(bs[off..off + 4])
  }

  /** The little-endian 16-bit code unit at bs[off..off+2]. */
  function Uint16At(bs: seq<byte>, off: nat): (u: uint16)
    requires off + 2 <= |bs|
  {
    bs[off] as int + 256 * (bs[off + 1] as int)
  }

  function EncodeInt32(x: int32): (r: seq<byte>)
    ensures |r| == 4
  {
    Pow256Widths();
    EncodeUintLE(FromSigned(x, 0x8000_0000), 4)
  }

  function EncodeInt64(x: int64): (r: seq<byte>)
    ensures |r| == 8
  {
    Pow256Widths();
    EncodeUintLE(FromSigned(x, 0x8000_0000_0000_0000), 8)
  }

  function EncodeWord32(w: uint32): (r: seq<byte>)
    ensures |r| == 4
  {
    Pow256Widths();
    EncodeUintLE(w, 4)
  }

  function EncodeUint16(u: uint16): (r: seq<byte>)
    ensures |r| == 2
  {
    [u % 256, u / 256]
  }

  /** Reading an int32 back from its encoding, wherever it sits. */
  lemma Int32RoundTrip(bs: seq<byte>, off: nat, x: int32)
    requires off + 4 <= |bs| && bs[off..off + 4] == EncodeInt32(x)
    ensures Int32At(bs, off) == x
  {
    Pow256Widths();
    UintLERoundTrip(FromSigned(x, 0x8000_0000), 4);
  }

  lemma Int64RoundTrip(bs: seq<byte>, off: nat, x: int64)
    requires off + 8 <= |bs| && bs[off..off + 8] == EncodeInt64(x)
    ensures Int64At(bs, off) == x
  {
    Pow256Widths();
    UintLERoundTrip(FromSigned(x, 0x8000_0000_0000_0000), 8);
  }

  lemma Word32RoundTrip(bs: seq<byte>, off: nat, w: uint32)
    requires off + 4 <= |bs| && bs[off..off + 4] == EncodeWord32(w)
    ensures Word32At(bs, off) == w
  {
    Pow256Widths();
    UintLERoundTrip(w, 4);
  }

  lemma Uint16RoundTrip(bs: seq<byte>, off: nat, u: uint16)
    requires off + 2 <= |bs| && bs[off..off + 2] == EncodeUint16(u)
    ensures Uint16At(bs, off) == u
  {
    assert bs[off] == bs[off..off + 2][0];
    assert bs[off + 1] == bs[off..off + 2][1];
  }

  /** Encoding the int32 read from four bytes gives those bytes back. */
  lemma EncodeInt32RoundTrip(bs: seq<byte>, off: nat)
    requires off + 4 <= |bs|
    ensures EncodeInt32(Int32At(bs, off)) == bs[off..off + 4]
  {
    var w := bs[off..off + 4];
    Pow256Widths();
    SignedRoundTrip(UintLE(w), 0x8000_0000);
    EncodeUintLERoundTrip(w);
  }

  lemma EncodeInt64RoundTrip(bs: seq<byte>, off: nat)
    requires off + 8 <= |bs|
    ensures EncodeInt64(Int64At(bs, off)) == bs[off..off + 8]
  {
    var w := bs[off..off + 8];
    Pow256Widths();
    SignedRoundTrip(UintLE(w), 0x8000_0000_0000_0000);
    EncodeUintLERoundTrip(w);
  }

  lemma EncodeWord32RoundTrip(bs: seq<byte>, off: nat)
    requires off + 4 <= |bs|
    ensures EncodeWord32(Word32At(bs, off)) == bs[off..off + 4]
  {
    Pow256Widths();
    EncodeUintLERoundTrip(bs[off..off + 4]);
  }

  lemma EncodeUint16RoundTrip(bs: seq<byte>, off: nat)
    requires off + 2 <= |bs|
    ensures EncodeUint16(Uint16At(bs, off)) == bs[off..off + 2]
  {
  }
}

=== FILE: calendar.dfy ===
/** The proleptic Gregorian calendar counted from 1601-01-01, the FILETIME
    epoch (userassist_parser.py:237). 1601 opens a 400-year cycle, so a day
    number splits into 400-, 100-, 4- and 1-year periods; the result is
    checked against a closed-form day count. */
module Calendar {

  const EpochYear: int := 1601
  const DaysPer400Years: int := 146097
  const DaysPer100Years: int := 36524
  const DaysPer4Years: int := 1461
  const DaysPerYear: int := 365

  predicate IsLeap(y: int)
  {
    y % 4 == 0 && (y % 100 != 0 || y % 400 == 0)
  }

  function DaysInYear(y: int): int
  {
    if IsLeap(y) then 366 else 365
  }

  function DaysInMonth(y: int, m: int): int
    requires 1 <= m <= 12
  {
    if m == 2 then (if IsLeap(y) then 29 else 28)
    else if m == 4 || m == 6 || m == 9 || m == 11 then 30
    else 31
  }

  /** Days of year y before the first of month m (m = 13: the whole year). */
  function DaysBeforeMonth(y: int, m: int): int
    requires 1 <= m <= 13
  {
    var common :=
      if m == 1 then 0 else if m == 2 then 31 else if m == 3 then 59
      else if m == 4 then 90 else if m == 5 then 120 else if m == 6 then 151
      else if m == 7 then 181 else if m == 8 then 212 else if m == 9 then 243
      else if m == 10 then 273 else if m == 11 then 304 else if m == 12 then 334
      else 365;
    common + (if m > 2 && IsLeap(y) then 1 else 0)
  }

  /** The cumulative table agrees with the month lengths and the year length. */
  lemma MonthTableConsistent(y: int, m: int)
    requires 1 <= m <= 12
    ensures DaysBeforeMonth(y, m + 1) == DaysBeforeMonth(y, m) + DaysInMonth(y, m)
    ensures DaysBeforeMonth(y, 13) == DaysInYear(y)
  {
  }

  /** Days from 1601-01-01 to the first of January of year y (negative before 1601). */
  function DaysBeforeYear(y: int): int
  {
    var k := y - EpochYear;
    365 * k + k / 4 - k / 100 + k / 400
  }

  datatype Date = Date(year: int, month: int, day: int)

  predicate ValidDate(d: Date)
  {
    1 <= d.month <= 12 && 1 <= d.day <= DaysInMonth(d.year, d.month)
  }

  /** Days from 1601-01-01 to `d`. */
  function DayNumber(d: Date): int
    requires 1 <= d.month <= 12
  {
    DaysBeforeYear(d.year) + DaysBeforeMonth(d.year, d.month) + d.day - 1
  }

  /** Division by one of the calendar's period lengths absorbs whole multiples. */
  lemma DivShift(a: int, r: int, m: int)
    requires m == 4 || m == 100 || m == 400
    ensures (m * a + r) / m == a + r / m
    ensures (m * a + r) % m == r % m
  {
    if m == 4 {
      assert (4 * a + r) / 4 == a + r / 4;
    } else if m == 100 {
      assert (100 * a + r) / 100 == a + r / 100;
    } else {
      assert (400 * a + r) / 400 == a + r / 400;
    }
  }

  /** The quotient by m steps up exactly when k + 1 is a multiple of m. */
  lemma StepDiv(k: int, m: int)
    requires m == 4 || m == 100 || m == 400
    ensures (k + 1) / m == k / m + (if (k + 1) % m == 0 then 1 else 0)
  {
    if m == 4 {
      assert (k + 1) / 4 == k / 4 + (if (k + 1) % 4 == 0 then 1 else 0);
    } else if m == 100 {
      assert (k + 1) / 100 == k / 100 + (if (k + 1) % 100 == 0 then 1 else 0);
    } else {
      assert (k + 1) / 400 == k / 400 + (if (k + 1) % 400 == 0 then 1 else 0);
    }
  }

  /** One year later the count grows by exactly the length of the year. */
  lemma DaysBeforeNextYear(y: int)
    ensures DaysBeforeYear(y + 1) == DaysBeforeYear(y) + DaysInYear(y)
  {
    var k := y - EpochYear;
    StepDiv(k, 4);
    StepDiv(k, 100);
    StepDiv(k, 400);
    DivShift(400, k + 1, 4);
    DivShift(16, k + 1, 100);
    DivShift(4, k + 1, 400);
    assert y == 4 * 400 + (k + 1) == 100 * 16 + (k + 1) == 400 * 4 + (k + 1);
  }

  lemma {:induction false} DaysBeforeYearMonotone(a: int, b: int)
    requires a <= b
    ensures DaysBeforeYear(a) + 365 * (b - a) <= DaysBeforeYear(b)
    decreases b - a
  {
    if a < b {
      DaysBeforeNextYear(a);
      DaysBeforeYearMonotone(a + 1, b);
    }
  }

  /** The month holding day-of-year `doy`, searching down from month m. */
  function MonthContaining(y: int, doy: int, m: int): (r: int)
    requires 1 <= m <= 12 && 0 <= doy < DaysBeforeMonth(y, m + 1)
    ensures 1 <= r <= m
    ensures DaysBeforeMonth(y, r) <= doy < DaysBeforeMonth(y, r + 1)
  {
    if doy >= DaysBeforeMonth(y, m) then m else MonthContaining(y, doy, m - 1)
  }

  /** Year and day-of-year of day number n: n = 146097*n400 + 36524*n100
      + 1461*n4 + 365*n1 + doy, with n100 and n1 capped at 3 so that the last
      day of a leap period stays in its year. */
  function YearAndDay(n: int): (yd: (int, int))
    ensures 0 <= yd.1 < DaysInYear(yd.0)
    ensures DaysBeforeYear(yd.0) + yd.1 == n
  {
    var n400 := n / DaysPer400Years;
    var r400 := n % DaysPer400Years;
    var n100 := if r400 / DaysPer100Years < 3 then r400 / DaysPer100Years else 3;
    var r100 := r400 - DaysPer100Years * n100;
    var n4 := r100 / DaysPer4Years;
    var r4 := r100 % DaysPer4Years;
    var n1 := if r4 / DaysPerYear < 3 then r4 / DaysPerYear else 3;
    var doy := r4 - DaysPerYear * n1;
    YearAndDayCorrect(n400, n100, n4, n1, r400, r100, r4, doy);
    (EpochYear + 400 * n400 + 100 * n100 + 4 * n4 + n1, doy)
  }

  /** The closed-form count over whole periods. */
  lemma PeriodDays(n400: int, n100: int, n4: int, n1: int)
    requires 0 <= n100 <= 3 && 0 <= n4 <= 24 && 0 <= n1 <= 3
    ensures DaysBeforeYear(EpochYear + 400 * n400 + 100 * n100 + 4 * n4 + n1)
            == DaysPer400Years * n400 + DaysPer100Years * n100 + DaysPer4Years * n4 + DaysPerYear * n1
  {
    var j := 100 * n100 + 4 * n4 + n1;
    var k := 400 * n400 + j;
    DivShift(100 * n400 + 25 * n100 + n4, n1, 4);
    assert k == 4 * (100 * n400 + 25 * n100 + n4) + n1;
    DivShift(4 * n400 + n100, 4 * n4 + n1, 100);
    assert k == 100 * (4 * n400 + n100) + (4 * n4 + n1);
    DivShift(n400, j, 400);
    assert k / 4 == 100 * n400 + 25 * n100 + n4;
    assert k / 100 == 4 * n400 + n100;
    assert k / 400 == n400;
  }

  /** Which years of a 400-year cycle are leap years. */
  lemma PeriodLeap(n400: int, n100: int, n4: int, n1: int)
    requires 0 <= n100 <= 3 && 0 <= n4 <= 24 && 0 <= n1 <= 3
    ensures var y := EpochYear + 400 * n400 + 100 * n100 + 4 * n4 + n1;
            IsLeap(y) <== (n1 == 3 && (n4 < 24 || n100 == 3))
  {
    var j := 100 * n100 + 4 * n4 + n1;
    var y := EpochYear + 400 * n400 + j;
    DivShift(400 + 100 * n400 + 25 * n100 + n4, n1 + 1, 4);
    assert y == 4 * (400 + 100 * n400 + 25 * n100 + n4) + (n1 + 1);
    DivShift(16 + 4 * n400 + n100, 4 * n4 + n1 + 1, 100);
    assert y == 100 * (16 + 4 * n400 + n100) + (4 * n4 + n1 + 1);
    DivShift(4 + n400, j + 1, 400);
    assert y == 400 * (4 + n400) + (j + 1);
  }

  lemma YearAndDayCorrect(n400: int, n100: int, n4: int, n1: int, r400: int, r100: int, r4: int, doy: int)
    requires 0 <= r400 < DaysPer400Years
    requires n100 == (if r400 / DaysPer100Years < 3 then r400 / DaysPer100Years else 3)
    requires r100 == r400 - DaysPer100Years * n100
    requires n4 == r100 / DaysPer4Years && r4 == r100 % DaysPer4Years
    requires n1 == (if r4 / DaysPerYear < 3 then r4 / DaysPerYear else 3)
    requires doy == r4 - DaysPerYear * n1
    ensures var y := EpochYear + 400 * n400 + 100 * n100 + 4 * n4 + n1;
            && 0 <= doy < DaysInYear(y)
            && DaysBeforeYear(y) == DaysPer400Years * n400 + r400 - doy
  {
    assert 0 <= n100 <= 3 && 0 <= r100 <= DaysPer100Years;
    assert r100 == DaysPer100Years ==> n100 == 3;
    assert 0 <= n4 <= 24 && 0 <= r4 < DaysPer4Years;
    assert r100 == DaysPer4Years * n4 + r4;
    assert 0 <= n1 <= 3 && 0 <= doy <= 365;
    assert doy == 365 ==> n1 == 3 && r4 == 1460;
    assert doy == 365 && n4 == 24 ==> r100 == DaysPer100Years;
    PeriodDays(n400, n100, n4, n1);
    PeriodLeap(n400, n100, n4, n1);
  }

  /** The calendar date of day number n (days from 1601-01-01). */
  function DateOf(n: int): (d: Date)
    ensures ValidDate(d)
    ensures DayNumber(d) == n
  {
    var (y, doy) := YearAndDay(n);
    MonthTableConsistent(y, 12);
    var m := MonthContaining(y, doy, 12);
    MonthTableConsistent(y, m);
    Date(y, m, doy - DaysBeforeMonth(y, m) + 1)
  }

  /** A valid date lies within its own year's span of day numbers. */
  lemma DayNumberInYear(d: Date)
    requires ValidDate(d)
    ensures DaysBeforeYear(d.year) <= DayNumber(d) < DaysBeforeYear(d.year + 1)
  {
    MonthTableConsistent(d.year, d.month);
    DaysBeforeNextYear(d.year);
    var m := d.month;
    while m < 12
      invariant d.month <= m <= 12
      invariant DaysBeforeMonth(d.year, d.month + 1) <= DaysBeforeMonth(d.year, m + 1)
    {
      MonthTableConsistent(d.year, m + 1);
      m := m + 1;
    }
  }

  lemma MonthTableMonotone(y: int, a: int, b: int)
    requires 1 <= a <= b <= 13
    ensures DaysBeforeMonth(y, a) <= DaysBeforeMonth(y, b)
  {
  }

  /** Distinct valid dates have distinct day numbers. */
  lemma DayNumberInjective(a: Date, b: Date)
    requires ValidDate(a) && ValidDate(b) && DayNumber(a) == DayNumber(b)
    ensures a == b
  {
    DayNumberInYear(a);
    DayNumberInYear(b);
    if a.year < b.year {
      DaysBeforeYearMonotone(a.year + 1, b.year);
    } else if b.year < a.year {
      DaysBeforeYearMonotone(b.year + 1, a.year);
    }
    assert a.year == b.year;
    MonthTableConsistent(a.year, a.month);
    MonthTableConsistent(b.year, b.month);
    if a.month < b.month {
      MonthTableMonotone(a.year, a.month + 1, b.month);
    } else if b.month < a.month {
      MonthTableMonotone(a.year, b.month + 1, a.month);
    }
  }

  /** DateOf inverts DayNumber on valid dates. */
  lemma DateOfDayNumber(d: Date)
    requires ValidDate(d)
    ensures DateOf(DayNumber(d)) == d
  {
    DayNumberInjective(DateOf(DayNumber(d)), d);
  }

  /** The day numbers of years 1 through 9999, the years `datetime` can hold. */
  lemma YearRange(n: int)
    ensures 1 <= DateOf(n).year <= 9999 <==> DaysBeforeYear(1) <= n < DaysBeforeYear(10000)
  {
    var y := DateOf(n).year;
    DayNumberInYear(DateOf(n));
    if y < 1 {
      DaysBeforeYearMonotone(y + 1, 1);
    } else if y > 9999 {
      DaysBeforeYearMonotone(10000, y);
    } else {
      DaysBeforeYearMonotone(1, y);
      DaysBeforeYearMonotone(y + 1, 10000);
    }
  }
}

=== FILE: decimal.dfy ===
/** Zero-padded fixed-width decimal fields, as `datetime.isoformat` writes
    the year (4 digits), month, day, hour, minute, second (2 digits) and
    microsecond (6 digits), and the reader that inverts them. */
module Decimal {

  function Pow10(n: nat): (r: nat)
    ensures r > 0
  {
    if n == 0 then 1 else 10 * Pow10(n - 1)
  }

  predicate IsDigit(c: char)
  {
    '0' <= c <= '9'
  }

  function DigitChar(d: nat): (c: char)
    requires d < 10
    ensures IsDigit(c)
  {
    ('0' as int + d) as char
  }

  function DigitValue(c: char): (d: nat)
    requires IsDigit(c)
    ensures d < 10
  {
    c as int - '0' as int
  }

  predicate AllDigits(s: string)
  {
    forall i :: 0 <= i < |s| ==> IsDigit(s[i])
  }

  /** `'%0*d' % (width, n)`: the last `width` decimal digits of n, most
      significant first. */
  function FixedDigits(n: nat, width: nat): (s: string)
    requires n < Pow10(width)
    ensures |s| == width && AllDigits(s)
  {
    if width == 0 then "" else FixedDigits(n / 10, width - 1) + [DigitChar(n % 10)]
  }

  /** The number a string of decimal digits denotes. */
  function DigitsValue(s: string): (n: nat)
    requires AllDigits(s)
    ensures n < Pow10(|s|)
  {
    if |s| == 0 then 0 else 10 * DigitsValue(s[..|s| - 1]) + DigitValue(s[|s| - 1])
  }

  /** Reading back a fixed-width field gives the number written. */
  lemma {:induction false} FixedDigitsRoundTrip(n: nat, width: nat)
    requires n < Pow10(width)
    ensures DigitsValue(FixedDigits(n, width)) == n
  {
    if width > 0 {
      var s := FixedDigits(n, width);
      assert s[..|s| - 1] == FixedDigits(n / 10, width - 1);
      FixedDigitsRoundTrip(n / 10, width - 1);
    }
  }
}

=== FILE: dispatch.dfy ===
/** The record dispatcher and the two passes of main (userassist_parser.py:
    33-35): parseUEME collects the UEME_CTLSESSION aggregate of every GUID
    bucket, then parseValues decodes every value of every bucket by its
    byte length. The global KEYS and UEME lists become returned sequences,
    and every exception the modelled code can raise is an `Err`, except
    the UTF-16 decoding error of lines 209-211 and the IndexError of line
    45, which lie outside the model; `UndefinedGetName` arises only from
    the dispatcher as written. */
module Dispatch {
  import opened Results
  import opened LittleEndian
  import opened Records
  import opened Session
  import opened Duration
  import opened Filetime
  import opened Stats

  /** A value of a GUID's Count key: its ROT-13-decoded name and raw bytes. */
  datatype RawValue = RawValue(name: string, data: seq<byte>)

  /** The values of one UserAssist GUID subkey, in enumeration order. */
  datatype Bucket = Bucket(guid: string, values: seq<RawValue>)

  /** The empty CSV cell '' that a legacy row puts in its focus columns. */
  datatype Cell = Blank

  /** One row of the KEYS list. */
  datatype UaRecord =
    | LegacyRow(path: string, legacy: LegacyRecord, focusTime: Cell, focusCount: Cell)
    | ModernRow(guid: string, path: string, modern: ModernRecord, focusHuman: Breakdown,
                lastUsedIso: string, nValue: real, r0Value: real, usage: real)
  {
    function Path(): string
    {
      match this
      case LegacyRow(p, _, _, _) => p
      case ModernRow(_, p, _, _, _, _, _, _) => p
    }
  }

  /** The exceptions that escape parseUEME and parseValues. */
  datatype ParseError =
    | MissingCtlSession(guid: string)               // KeyError, line 205
    | BadCtlSessionSize(guid: string, size: nat)    // struct.error, line 206
    | NoSession(guid: string)                       // UnboundLocalError, line 229
    | UndefinedGetName(name: string)                // NameError, line 157
    | ZeroMostUsedNValue(guid: string, name: string) // ZeroDivisionError, line 165
    | ZeroUserTime(guid: string, name: string)      // ZeroDivisionError, line 166
    | DateOutOfRange(guid: string, name: string)    // OverflowError, line 243

  /** What parseValues returns and appends: the rows and `ua_type`. */
  datatype Parsed = Parsed(records: seq<UaRecord>, uaType: int)

  /** The value lengths the dispatcher decodes. */
  predicate Decodable(v: RawValue)
  {
    |v.data| == LegacySize || |v.data| == ModernSize
  }

  /** A 72-byte value: the modern record, its statistics under the bucket's
      aggregate, and its last-used time as text. The divisions of lines 165
      and 166 and the date conversion of line 168 may raise. */
  function DecodeModernValue(guid: string, a: Aggregate, v: RawValue): (r: Result<Option<UaRecord>, ParseError>)
    requires |v.data| == ModernSize
    ensures r.Ok? ==> && r.value.Some? && r.value.value.ModernRow?
                      && r.value.value.guid == guid && r.value.value.path == v.name
                      && r.value.value.modern == DecodeModern(v.data)
    ensures r.Err? ==> r.error in {ZeroMostUsedNValue(guid, v.name), ZeroUserTime(guid, v.name), DateOutOfRange(guid, v.name)}
  {
    var r := DecodeModern(v.data);
    var n := NValue(a, r.runCount, r.focusCount, r.focusTime);
    match R0Value(n, MostUsedNValue(a))
    case None => Err(ZeroMostUsedNValue(guid, v.name))
    case Some(r0) =>
      match UsagePercentage(n, a)
      case None => Err(ZeroUserTime(guid, v.name))
      case Some(usage) =>
        match FiletimeToIso(r.lastUsed)
        case None => Err(DateOutOfRange(guid, v.name))
        case Some(iso) =>
          Ok(Some(ModernRow(guid, v.name, r, FocusBreakdown(r.focusTime), iso, n, r0, usage)))
  }

  /** The body of the inner loop of parseValues, with the 16-byte branch
      producing its row as evidently intended: `Ok(None)` is a skipped value. */
  function DecodeValue(guid: string, a: Aggregate, v: RawValue): (r: Result<Option<UaRecord>, ParseError>)
    ensures r == Ok(None) <==> !Decodable(v)
    ensures r.Ok? && r.value.Some? ==> RowOf(r.value.value, v)
    ensures r.Err? ==> |v.data| == ModernSize
  {
    if |v.data| == LegacySize then Ok(Some(LegacyRow(v.name, DecodeLegacy(v.data), Blank, Blank)))
    else if |v.data| == ModernSize then DecodeModernValue(guid, a, v)
    else Ok(None)
  }

  /** The same loop body as written: the 16-byte branch calls `getName`,
      which the module never defines, so it raises NameError. */
  function DecodeValueAsWritten(guid: string, a: Aggregate, v: RawValue): Result<Option<UaRecord>, ParseError>
  {
    if |v.data| == LegacySize then Err(UndefinedGetName(v.name))
    else DecodeValue(guid, a, v)
  }

  /** As written, every 16-byte value raises, whatever its bytes; elsewhere
      the code as written and the corrected dispatcher agree. */
  lemma LegacyValueRaisesAsWritten(guid: string, a: Aggregate, v: RawValue)
    ensures |v.data| == LegacySize ==> DecodeValueAsWritten(guid, a, v) == Err(UndefinedGetName(v.name))
    ensures |v.data| == LegacySize ==> DecodeValue(guid, a, v).Ok?
    ensures |v.data| != LegacySize ==> DecodeValueAsWritten(guid, a, v) == DecodeValue(guid, a, v)
  {
  }

  /** The value of a 16-byte encoding of (session id, count, ticks) becomes
      one legacy row holding exactly those values, the ticks still raw, and
      both focus cells blank rather than 0. */
  lemma LegacyDispatch(guid: string, a: Aggregate, name: string, r: LegacyRecord)
    ensures DecodeValue(guid, a, RawValue(name, EncodeLegacy(r))) == Ok(Some(LegacyRow(name, r, Blank, Blank)))
  {
    LegacyRoundTrip(r);
  }

  /** A 72-byte value raises exactly when one of the three conditions the
      source does not guard holds, checked in the source's order: the most
      used N value is 0, the total user time is 0, the year leaves 1..9999. */
  lemma ModernValueErrors(guid: string, a: Aggregate, v: RawValue)
    requires |v.data| == ModernSize
    ensures var d := DecodeValue(guid, a, v);
            && (d == Err(ZeroMostUsedNValue(guid, v.name)) <==> MostUsedNValue(a) == 0.0)
            && (d == Err(ZeroUserTime(guid, v.name)) <==> MostUsedNValue(a) != 0.0 && a.totalUserTime == 0)
            && (d == Err(DateOutOfRange(guid, v.name)) <==>
                  MostUsedNValue(a) != 0.0 && a.totalUserTime != 0
                  && FiletimeToIso(DecodeModern(v.data).lastUsed).None?)
            && (d.Err? || d.value.Some?)
  {
  }

  /** The row of a 72-byte value: the decoded record, its focus time broken
      down, its last-used time as text, and the three statistics. */
  lemma ModernValueRow(guid: string, a: Aggregate, v: RawValue)
    requires |v.data| == ModernSize && DecodeValue(guid, a, v).Ok?
    ensures var r := DecodeModern(v.data);
            var n := NValue(a, r.runCount, r.focusCount, r.focusTime);
            var row := DecodeValue(guid, a, v).value;
            && row.Some? && row.value.ModernRow?
            && row.value.guid == guid && row.value.path == v.name
            && row.value.modern == r
            && row.value.focusHuman == FocusBreakdown(r.focusTime)
            && Some(row.value.lastUsedIso) == FiletimeToIso(r.lastUsed)
            && row.value.nValue == n
            && Some(row.value.r0Value) == R0Value(n, MostUsedNValue(a))
            && Some(row.value.usage) == UsagePercentage(n, a)
  {
    var r := DecodeModern(v.data);
    var n := NValue(a, r.runCount, r.focusCount, r.focusTime);
    var r0 := R0Value(n, MostUsedNValue(a));
    var usage := UsagePercentage(n, a);
    var iso := FiletimeToIso(r.lastUsed);
    assert r0.Some? && usage.Some? && iso.Some?;
    assert DecodeValue(guid, a, v)
           == Ok(Some(ModernRow(guid, v.name, r, FocusBreakdown(r.focusTime), iso.value, n, r0.value, usage.value)));
  }

  /** The value of a 72-byte encoding of a modern record carries exactly that
      record into its row. */
  lemma ModernDispatch(guid: string, a: Aggregate, name: string, r: ModernRecord)
    ensures var d := DecodeValue(guid, a, RawValue(name, EncodeModern(r)));
            d.Ok? ==> d.value.Some? && d.value.value.ModernRow? && d.value.value.modern == r
  {
    ModernRoundTrip(r);
    var v := RawValue(name, EncodeModern(r));
    if DecodeValue(guid, a, v).Ok? {
      ModernValueRow(guid, a, v);
    }
  }

  /** Every other length, the 1612-byte UEME_CTLSESSION value included, is
      skipped: no row and no error. */
  lemma SkipDispatch(guid: string, a: Aggregate, v: RawValue)
    requires !Decodable(v)
    ensures DecodeValue(guid, a, v) == Ok(None)
  {
  }

  /** The values the dispatcher decodes, in input order. */
  function Kept(vs: seq<RawValue>): (k: seq<RawValue>)
    ensures forall i :: 0 <= i < |k| ==> Decodable(k[i]) && k[i] in vs
    ensures forall v :: v in vs ==> (v in k <==> Decodable(v))
    ensures |k| <= |vs|
  {
    if |vs| == 0 then []
    else Kept(vs[..|vs| - 1]) + (if Decodable(vs[|vs| - 1]) then [vs[|vs| - 1]] else [])
  }

  /** A single value is kept exactly when it is decodable; with KeptAppend
      this determines Kept on every sequence. */
  lemma KeptSingle(v: RawValue)
    ensures Kept([v]) == if Decodable(v) then [v] else []
  {
    assert [v][..0] == [];
  }

  /** Keeping commutes with concatenation, so relative order is preserved. */
  lemma {:induction false} KeptAppend(vs: seq<RawValue>, ws: seq<RawValue>)
    ensures Kept(vs + ws) == Kept(vs) + Kept(ws)
    decreases |ws|
  {
    if |ws| > 0 {
      assert (vs + ws)[..|vs + ws| - 1] == vs + ws[..|ws| - 1];
      KeptAppend(vs, ws[..|ws| - 1]);
    } else {
      assert vs + ws == vs;
    }
  }

  /** A row corresponds to a kept value: same name, the layout its length
      selects, the record decoded from its bytes, and blank focus cells in
      a legacy row. */
  predicate RowOf(r: UaRecord, v: RawValue)
  {
    && r.Path() == v.name
    && (r.LegacyRow? <==> |v.data| == LegacySize)
    && (r.LegacyRow? && |v.data| == LegacySize ==>
          r.legacy == DecodeLegacy(v.data) && r.focusTime == Blank && r.focusCount == Blank)
    && (r.ModernRow? && |v.data| == ModernSize ==> r.modern == DecodeModern(v.data))
  }

  /** Rows and kept values correspond one to one, in order. */
  predicate RowsOf(rs: seq<UaRecord>, vs: seq<RawValue>)
  {
    |rs| == |vs| && forall i :: 0 <= i < |rs| ==> RowOf(rs[i], vs[i])
  }

  lemma RowsOfAppend(rs: seq<UaRecord>, vs: seq<RawValue>, rs': seq<UaRecord>, vs': seq<RawValue>)
    requires RowsOf(rs, vs) && RowsOf(rs', vs')
    ensures RowsOf(rs + rs', vs + vs')
  {
    forall i | 0 <= i < |rs + rs'| ensures RowOf((rs + rs')[i], (vs + vs')[i]) {
      if i >= |rs| {
        assert (rs + rs')[i] == rs'[i - |rs|] && (vs + vs')[i] == vs'[i - |vs|];
      }
    }
  }

  lemma DecodedRow(guid: string, a: Aggregate, v: RawValue)
    ensures DecodeValue(guid, a, v) == Ok(None) ==> !Decodable(v)
    ensures forall r :: DecodeValue(guid, a, v) == Ok(Some(r)) ==> Decodable(v) && RowOf(r, v)
  {
  }

  /** The rows of one bucket's values, or the first error raised. */
  function DecodeValues(guid: string, a: Aggregate, vs: seq<RawValue>): (r: Result<seq<UaRecord>, ParseError>)
    ensures r.Ok? ==> RowsOf(r.value, Kept(vs))
    ensures r.Err? ==> !r.error.NoSession? && !r.error.MissingCtlSession? && !r.error.BadCtlSessionSize?
  {
    if |vs| == 0 then Ok([])
    else
      var last := vs[|vs| - 1];
      DecodedRow(guid, a, last);
      match DecodeValues(guid, a, vs[..|vs| - 1])
      case Err(e) => Err(e)
      case Ok(rs) =>
        match DecodeValue(guid, a, last)
        case Err(e) => Err(e)
        case Ok(None) => Ok(rs)
        case Ok(Some(row)) =>
          RowsOfAppend(rs, Kept(vs[..|vs| - 1]), [row], [last]);
          Ok(rs + [row])
  }

  /** DecodeValues over one more value: an earlier error stays, else the new
      value's error is raised, else the values still decode. */
  lemma DecodeValuesLast(guid: string, a: Aggregate, vs: seq<RawValue>)
    requires |vs| > 0
    ensures var p := DecodeValues(guid, a, vs[..|vs| - 1]);
            var d := DecodeValue(guid, a, vs[|vs| - 1]);
            var r := DecodeValues(guid, a, vs);
            && (p.Err? ==> r == p)
            && (p.Ok? && d.Err? ==> r == Err(d.error))
            && (p.Ok? && d.Ok? ==> r.Ok?)
  {
  }

  /** A bucket's values decode exactly when each value does. */
  lemma DecodeValuesSucceeds(guid: string, a: Aggregate, vs: seq<RawValue>)
    ensures DecodeValues(guid, a, vs).Ok? <==> forall i :: 0 <= i < |vs| ==> DecodeValue(guid, a, vs[i]).Ok?
  {
    if DecodeValues(guid, a, vs).Ok? {
      DecodedValuesOk(guid, a, vs);
    } else {
      FailingValueExists(guid, a, vs);
    }
  }

  lemma {:induction false} DecodedValuesOk(guid: string, a: Aggregate, vs: seq<RawValue>)
    requires DecodeValues(guid, a, vs).Ok?
    ensures forall i :: 0 <= i < |vs| ==> DecodeValue(guid, a, vs[i]).Ok?
  {
    if |vs| > 0 {
      var n := |vs| - 1;
      var prefix := vs[..n];
      DecodeValuesLast(guid, a, vs);
      DecodedValuesOk(guid, a, prefix);
      forall i | 0 <= i < n ensures DecodeValue(guid, a, vs[i]).Ok? {
        assert vs[i] == prefix[i];
      }
    }
  }

  lemma {:induction false} FailingValueExists(guid: string, a: Aggregate, vs: seq<RawValue>)
    requires DecodeValues(guid, a, vs).Err?
    ensures exists i :: 0 <= i < |vs| && DecodeValue(guid, a, vs[i]).Err?
  {
    var n := |vs| - 1;
    var prefix := vs[..n];
    DecodeValuesLast(guid, a, vs);
    if DecodeValues(guid, a, prefix).Err? {
      FailingValueExists(guid, a, prefix);
      var i :| 0 <= i < n && DecodeValue(guid, a, prefix[i]).Err?;
      assert vs[i] == prefix[i];
    } else {
      assert DecodeValue(guid, a, vs[n]).Err?;
    }
  }

  /** The error a bucket raises is that of the first value that raises. */
  lemma {:induction false} DecodeValuesFirstError(guid: string, a: Aggregate, vs: seq<RawValue>)
    ensures DecodeValues(guid, a, vs).Err? ==>
              exists i :: && 0 <= i < |vs|
                          && DecodeValue(guid, a, vs[i]) == Err(DecodeValues(guid, a, vs).error)
                          && forall j :: 0 <= j < i ==> DecodeValue(guid, a, vs[j]).Ok?
  {
    if |vs| > 0 && DecodeValues(guid, a, vs).Err? {
      var n := |vs| - 1;
      var prefix := vs[..n];
      DecodeValuesLast(guid, a, vs);
      if DecodeValues(guid, a, prefix).Err? {
        DecodeValuesFirstError(guid, a, prefix);
        var i :| && 0 <= i < n
                 && DecodeValue(guid, a, prefix[i]) == Err(DecodeValues(guid, a, prefix).error)
                 && forall j :: 0 <= j < i ==> DecodeValue(guid, a, prefix[j]).Ok?;
        assert forall j :: 0 <= j <= i ==> prefix[j] == vs[j];
      } else {
        DecodedValuesOk(guid, a, prefix);
        forall j | 0 <= j < n ensures DecodeValue(guid, a, vs[j]).Ok? {
          assert prefix[j] == vs[j];
        }
        assert DecodeValue(guid, a, vs[n]) == Err(DecodeValues(guid, a, vs).error);
      }
    }
  }

  /** Row i of a bucket is exactly what the dispatcher makes of its i-th
      kept value: its GUID, statistics and date as well as its record. */
  lemma {:induction false} DecodeValuesRowAt(guid: string, a: Aggregate, vs: seq<RawValue>, i: nat)
    requires DecodeValues(guid, a, vs).Ok? && i < |Kept(vs)|
    ensures DecodeValue(guid, a, Kept(vs)[i]) == Ok(Some(DecodeValues(guid, a, vs).value[i]))
    decreases |vs|
  {
    var n := |vs| - 1;
    var prefix := vs[..n];
    var last := vs[n];
    DecodeValuesLast(guid, a, vs);
    DecodeValuesStep(guid, a, vs, n);
    assert vs[..n + 1] == vs;
    if i < |Kept(prefix)| {
      DecodeValuesRowAt(guid, a, prefix, i);
      assert Kept(vs)[i] == Kept(prefix)[i];
    } else {
      assert Kept(vs)[i] == last;
    }
  }

  /** Every value of every bucket that the dispatcher decodes, in order. */
  function AllKept(buckets: seq<Bucket>): seq<RawValue>
  {
    if |buckets| == 0 then [] else AllKept(buckets[..|buckets| - 1]) + Kept(buckets[|buckets| - 1].values)
  }

  /** parseValues as a whole: the rows of every bucket in order, or the
      first error raised, including a bucket with no aggregate. */
  function ParseBuckets(buckets: seq<Bucket>, sessions: seq<SessionEntry>): Result<seq<UaRecord>, ParseError>
  {
    if |buckets| == 0 then Ok([])
    else
      var b := buckets[|buckets| - 1];
      match ParseBuckets(buckets[..|buckets| - 1], sessions)
      case Err(e) => Err(e)
      case Ok(rs) =>
        match SearchSession(sessions, b.guid)
        case None => Err(NoSession(b.guid))
        case Some(a) =>
          match DecodeValues(b.guid, a, b.values)
          case Err(e) => Err(e)
          case Ok(bs) => Ok(rs + bs)
  }

  /** The rows parseValues returns correspond one to one, in order, to the
      16- and 72-byte values of all buckets. */
  lemma {:induction false} ParseBucketsRows(buckets: seq<Bucket>, sessions: seq<SessionEntry>)
    ensures ParseBuckets(buckets, sessions).Ok? ==> RowsOf(ParseBuckets(buckets, sessions).value, AllKept(buckets))
  {
    if |buckets| > 0 && ParseBuckets(buckets, sessions).Ok? {
      var prefix := buckets[..|buckets| - 1];
      var b := buckets[|buckets| - 1];
      ParseBucketsRows(prefix, sessions);
      var a := SearchSession(sessions, b.guid).value;
      RowsOfAppend(ParseBuckets(prefix, sessions).value, AllKept(prefix),
                   DecodeValues(b.guid, a, b.values).value, Kept(b.values));
    }
  }

  /** A bucket parseValues gets through: its GUID has an aggregate and all
      its values decode under it. */
  predicate BucketDecodes(b: Bucket, sessions: seq<SessionEntry>)
  {
    var found := SearchSession(sessions, b.guid);
    found.Some? && DecodeValues(b.guid, found.value, b.values).Ok?
  }

  /** parseValues over one more bucket succeeds exactly when it did before
      and the new bucket gets through. */
  lemma ParseBucketsLast(buckets: seq<Bucket>, sessions: seq<SessionEntry>)
    requires |buckets| > 0
    ensures ParseBuckets(buckets, sessions).Ok? <==>
              ParseBuckets(buckets[..|buckets| - 1], sessions).Ok? && BucketDecodes(buckets[|buckets| - 1], sessions)
  {
  }

  /** Every bucket gets through. */
  predicate AllDecode(buckets: seq<Bucket>, sessions: seq<SessionEntry>)
  {
    forall i :: 0 <= i < |buckets| ==> BucketDecodes(buckets[i], sessions)
  }

  lemma AllDecodeLast(buckets: seq<Bucket>, sessions: seq<SessionEntry>)
    requires |buckets| > 0
    ensures AllDecode(buckets, sessions) <==>
              AllDecode(buckets[..|buckets| - 1], sessions) && BucketDecodes(buckets[|buckets| - 1], sessions)
  {
    var prefix := buckets[..|buckets| - 1];
    assert forall i :: 0 <= i < |prefix| ==> prefix[i] == buckets[i];
  }

  /** parseValues succeeds exactly when every bucket gets through. */
  lemma {:induction false} ParseBucketsSucceeds(buckets: seq<Bucket>, sessions: seq<SessionEntry>)
    ensures ParseBuckets(buckets, sessions).Ok? <==> AllDecode(buckets, sessions)
  {
    if |buckets| > 0 {
      ParseBucketsLast(buckets, sessions);
      AllDecodeLast(buckets, sessions);
      ParseBucketsSucceeds(buckets[..|buckets| - 1], sessions);
    }
  }

  /** parseValues raises the error of the first bucket that does not get
      through: UnboundLocalError if its GUID has no aggregate, else the
      error of its values. Later buckets are never looked at. */
  lemma {:induction false} ParseBucketsFirstError(buckets: seq<Bucket>, sessions: seq<SessionEntry>, i: nat)
    requires i < |buckets| && !BucketDecodes(buckets[i], sessions)
    requires forall j :: 0 <= j < i ==> BucketDecodes(buckets[j], sessions)
    ensures var b := buckets[i];
            var found := SearchSession(sessions, b.guid);
            ParseBuckets(buckets, sessions)
            == if found.None? then Err(NoSession(b.guid)) else DecodeValues(b.guid, found.value, b.values)
  {
    var prefix := buckets[..i];
    assert AllDecode(prefix, sessions) by {
      forall j | 0 <= j < |prefix| ensures BucketDecodes(prefix[j], sessions) {
        assert prefix[j] == buckets[j];
      }
    }
    ParseBucketsSucceeds(prefix, sessions);
    assert buckets[..i + 1][..i] == prefix && buckets[..i + 1][i] == buckets[i];
    ParseBucketsErrPersists(buckets, sessions, i + 1);
  }

  /** Every bucket's GUID has an aggregate among the sessions. */
  predicate AllFound(buckets: seq<Bucket>, sessions: seq<SessionEntry>)
  {
    forall i :: 0 <= i < |buckets| ==> SearchSession(sessions, buckets[i].guid).Some?
  }

  lemma AllFoundStep(buckets: seq<Bucket>, sessions: seq<SessionEntry>)
    requires |buckets| > 0
    ensures AllFound(buckets, sessions) <==>
              AllFound(buckets[..|buckets| - 1], sessions)
              && SearchSession(sessions, buckets[|buckets| - 1].guid).Some?
  {
    var prefix := buckets[..|buckets| - 1];
    assert forall i :: 0 <= i < |prefix| ==> buckets[i] == prefix[i];
  }

  /** A missing session is raised only for the last bucket or inherited
      from the buckets before it. */
  lemma ParseBucketsStep(buckets: seq<Bucket>, sessions: seq<SessionEntry>)
    requires |buckets| > 0
    ensures var r := ParseBuckets(buckets, sessions);
            var p := ParseBuckets(buckets[..|buckets| - 1], sessions);
            var g := buckets[|buckets| - 1].guid;
            && (p.Err? ==> r == p)
            && (p.Ok? ==> (r.Ok? ==> SearchSession(sessions, g).Some?))
            && (p.Ok? ==> (r.Err? && r.error.NoSession? <==> SearchSession(sessions, g).None?))
            && (p.Ok? && SearchSession(sessions, g).None? ==> r == Err(NoSession(g)))
  {
  }

  /** parseValues raises for a missing session only when some bucket's GUID
      has no aggregate, and then names such a GUID; it succeeds only when
      every GUID has one. */
  lemma {:induction false} ParseBucketsNoSession(buckets: seq<Bucket>, sessions: seq<SessionEntry>)
    ensures var r := ParseBuckets(buckets, sessions);
            r.Err? && r.error.NoSession? ==>
              exists i :: 0 <= i < |buckets| && buckets[i].guid == r.error.guid
                          && SearchSession(sessions, buckets[i].guid).None?
    ensures AllFound(buckets, sessions) ==>
              !(ParseBuckets(buckets, sessions).Err? && ParseBuckets(buckets, sessions).error.NoSession?)
    ensures ParseBuckets(buckets, sessions).Ok? ==> AllFound(buckets, sessions)
  {
    if |buckets| > 0 {
      var prefix := buckets[..|buckets| - 1];
      var r := ParseBuckets(buckets, sessions);
      ParseBucketsStep(buckets, sessions);
      AllFoundStep(buckets, sessions);
      ParseBucketsNoSession(prefix, sessions);
      if r.Err? && r.error.NoSession? {
        if ParseBuckets(prefix, sessions).Err? {
          var i :| 0 <= i < |prefix| && prefix[i].guid == r.error.guid
                   && SearchSession(sessions, prefix[i].guid).None?;
          assert buckets[i] == prefix[i];
        } else {
          assert buckets[|buckets| - 1].guid == r.error.guid;
        }
      }
    }
  }

  /** `ua_type`: -1 when nothing was decoded, else 0 or 1 by the layout of
      the last decoded value. */
  function UaTypeOf(kept: seq<RawValue>): (t: int)
    ensures t == -1 <==> |kept| == 0
    ensures |kept| > 0 ==> (t == 0 <==> |kept[|kept| - 1].data| == LegacySize)
    ensures |kept| > 0 ==> (t == 1 <==> |kept[|kept| - 1].data| != LegacySize)
  {
    if |kept| == 0 then -1 else if |kept[|kept| - 1].data| == LegacySize then 0 else 1
  }

  lemma {:induction false} DecodeValuesErrPersists(guid: string, a: Aggregate, vs: seq<RawValue>, j: nat)
    requires j <= |vs| && DecodeValues(guid, a, vs[..j]).Err?
    ensures DecodeValues(guid, a, vs) == DecodeValues(guid, a, vs[..j])
    decreases |vs| - j
  {
    if j == |vs| {
      assert vs[..j] == vs;
    } else {
      assert vs[..j + 1][..j] == vs[..j];
      DecodeValuesErrPersists(guid, a, vs, j + 1);
    }
  }

  lemma {:induction false} ParseBucketsErrPersists(buckets: seq<Bucket>, sessions: seq<SessionEntry>, i: nat)
    requires i <= |buckets| && ParseBuckets(buckets[..i], sessions).Err?
    ensures ParseBuckets(buckets, sessions) == ParseBuckets(buckets[..i], sessions)
    decreases |buckets| - i
  {
    if i == |buckets| {
      assert buckets[..i] == buckets;
    } else {
      assert buckets[..i + 1][..i] == buckets[..i];
      ParseBucketsErrPersists(buckets, sessions, i + 1);
    }
  }

  /** `ua_type` after appending more decoded values: the last one decides. */
  lemma UaTypeAppend(k: seq<RawValue>, k': seq<RawValue>)
    ensures UaTypeOf(k + k') == if |k'| == 0 then UaTypeOf(k) else UaTypeOf(k')
  {
    if |k'| == 0 {
      assert k + k' == k;
    } else {
      assert (k + k')[|k + k'| - 1] == k'[|k'| - 1];
    }
  }

  /** DecodeValues over one more value: the new value's row is appended,
      a skipped value adds nothing, an error ends the bucket. */
  lemma DecodeValuesStep(guid: string, a: Aggregate, vs: seq<RawValue>, j: nat)
    requires j < |vs| && DecodeValues(guid, a, vs[..j]).Ok?
    ensures var rows := DecodeValues(guid, a, vs[..j]).value;
            var d := DecodeValue(guid, a, vs[j]);
            DecodeValues(guid, a, vs[..j + 1])
            == match d
               case Err(e) => Err(e)
               case Ok(None) => Ok(rows)
               case Ok(Some(row)) => Ok(rows + [row])
    ensures Kept(vs[..j + 1]) == Kept(vs[..j]) + if Decodable(vs[j]) then [vs[j]] else []
  {
    assert vs[..j + 1][..j] == vs[..j] && vs[..j + 1][j] == vs[j];
  }

  /** The inner loop of parseValues over one bucket: its rows, or the first
      exception, and `ua_type` as the loop leaves it. */
  method DecodeBucket(guid: string, a: Aggregate, vs: seq<RawValue>, uaType: int)
    returns (r: Result<seq<UaRecord>, ParseError>, uaType': int)
    ensures r == DecodeValues(guid, a, vs)
    ensures r.Ok? ==> uaType' == if |Kept(vs)| == 0 then uaType else UaTypeOf(Kept(vs))
  {
    uaType' := uaType;
    var rows: seq<UaRecord> := [];
    var j := 0;
    while j < |vs|
      invariant 0 <= j <= |vs|
      invariant DecodeValues(guid, a, vs[..j]) == Ok(rows)
      invariant uaType' == if |Kept(vs[..j])| == 0 then uaType else UaTypeOf(Kept(vs[..j]))
    {
      var v := vs[j];
      DecodeValuesStep(guid, a, vs, j);
      UaTypeAppend(Kept(vs[..j]), if Decodable(v) then [v] else []);
      var d := DecodeValue(guid, a, v);
      if d.Err? {
        DecodeValuesErrPersists(guid, a, vs, j + 1);
        return Err(d.error), uaType';
      }
      if |v.data| == LegacySize {
        uaType' := 0;
      } else if |v.data| == ModernSize {
        uaType' := 1;
      }
      if d.value.Some? {
        rows := rows + [d.value.value];
      }
      assert DecodeValues(guid, a, vs[..j + 1]) == Ok(rows);
      j := j + 1;
    }
    assert vs[..j] == vs;
    return Ok(rows), uaType';
  }

  /** parseValues as the source runs it: a loop over the buckets that
      threads `ua_type` and appends rows, stopping at the first exception. */
  method ParseValues(buckets: seq<Bucket>, sessions: seq<SessionEntry>) returns (r: Result<Parsed, ParseError>)
    ensures ParseBuckets(buckets, sessions).Err? ==> r == Err(ParseBuckets(buckets, sessions).error)
    ensures ParseBuckets(buckets, sessions).Ok? ==>
              r == Ok(Parsed(ParseBuckets(buckets, sessions).value, UaTypeOf(AllKept(buckets))))
  {
    var uaType := -1;
    var records: seq<UaRecord> := [];
    var i := 0;
    while i < |buckets|
      invariant 0 <= i <= |buckets|
      invariant ParseBuckets(buckets[..i], sessions) == Ok(records)
      invariant uaType == UaTypeOf(AllKept(buckets[..i]))
    {
      var b := buckets[i];
      assert buckets[..i + 1][..i] == buckets[..i] && buckets[..i + 1][i] == b;
      var found := SearchSession(sessions, b.guid);
      if found.None? {
        ParseBucketsErrPersists(buckets, sessions, i + 1);
        return Err(NoSession(b.guid));
      }
      var rows, uaType' := DecodeBucket(b.guid, found.value, b.values, uaType);
      if rows.Err? {
        ParseBucketsErrPersists(buckets, sessions, i + 1);
        return Err(rows.error);
      }
      UaTypeAppend(AllKept(buckets[..i]), Kept(b.values));
      records := records + rows.value;
      uaType := uaType';
      i := i + 1;
    }
    assert buckets[..i] == buckets;
    return Ok(Parsed(records, uaType));
  }

  /** dictionary[name] on the dict built from a bucket. */
  function FindValue(vs: seq<RawValue>, name: string): (r: Option<seq<byte>>)
    ensures r.None? <==> forall i :: 0 <= i < |vs| ==> vs[i].name != name
  {
    if |vs| == 0 then None
    else if vs[|vs| - 1].name == name then Some(vs[|vs| - 1].data)
    else FindValue(vs[..|vs| - 1], name)
  }

  /** The lookup finds the last value with the name: later values of the
      same name overwrite earlier ones. */
  lemma {:induction false} FindValueLastWins(vs: seq<RawValue>, name: string)
    ensures FindValue(vs, name).Some? ==>
              exists i :: 0 <= i < |vs| && vs[i] == RawValue(name, FindValue(vs, name).value)
                          && forall j :: i < j < |vs| ==> vs[j].name != name
  {
    if |vs| > 0 {
      var prefix := vs[..|vs| - 1];
      FindValueLastWins(prefix, name);
      assert forall i :: 0 <= i < |prefix| ==> prefix[i] == vs[i];
      if vs[|vs| - 1].name == name {
        assert vs[|vs| - 1] == RawValue(name, FindValue(vs, name).value);
      }
    }
  }

  /** A bucket parseUEME can decode: it holds a 1612-byte UEME_CTLSESSION value. */
  predicate HasCtlSession(b: Bucket)
  {
    var f := FindValue(b.values, CtlSessionName);
    f.Some? && |f.value| == AggregateSize
  }

  /** One iteration of parseUEME's loop (lines 205-215): the bucket's
      UEME_CTLSESSION value decoded as the session aggregate. A missing
      value raises KeyError and one of the wrong size struct.error. */
  function SessionOf(b: Bucket): (r: Result<SessionEntry, ParseError>)
    ensures r.Ok? <==> HasCtlSession(b)
    ensures r.Ok? ==> && r.value.guid == b.guid
                      && DecodeAggregate(FindValue(b.values, CtlSessionName).value) == Some(r.value.aggregate)
    ensures FindValue(b.values, CtlSessionName).None? ==> r == Err(MissingCtlSession(b.guid))
    ensures FindValue(b.values, CtlSessionName).Some? && !HasCtlSession(b) ==>
              r == Err(BadCtlSessionSize(b.guid, |FindValue(b.values, CtlSessionName).value|))
  {
    match FindValue(b.values, CtlSessionName)
    case None => Err(MissingCtlSession(b.guid))
    case Some(data) =>
      match DecodeAggregate(data)
      case None => Err(BadCtlSessionSize(b.guid, |data|))
      case Some(a) => Ok(SessionEntry(b.guid, a))
  }

  /** parseUEME: one aggregate per bucket, in bucket order, or the first error. */
  function ParseUeme(buckets: seq<Bucket>): (r: Result<seq<SessionEntry>, ParseError>)
    ensures r.Ok? ==> |r.value| == |buckets|
    ensures r.Err? ==> r.error.MissingCtlSession? || r.error.BadCtlSessionSize?
  {
    if |buckets| == 0 then Ok([])
    else
      match ParseUeme(buckets[..|buckets| - 1])
      case Err(e) => Err(e)
      case Ok(es) =>
        match SessionOf(buckets[|buckets| - 1])
        case Err(e) => Err(e)
        case Ok(entry) => Ok(es + [entry])
  }

  /** parseUEME over one more bucket succeeds exactly when it did before
      and the new bucket holds a 1612-byte UEME_CTLSESSION. */
  lemma ParseUemeStep(buckets: seq<Bucket>)
    requires |buckets| > 0
    ensures ParseUeme(buckets).Ok? <==>
              ParseUeme(buckets[..|buckets| - 1]).Ok? && HasCtlSession(buckets[|buckets| - 1])
  {
  }

  /** Every bucket holds a 1612-byte UEME_CTLSESSION. */
  predicate AllHaveCtlSession(buckets: seq<Bucket>)
  {
    forall i :: 0 <= i < |buckets| ==> HasCtlSession(buckets[i])
  }

  lemma AllHaveCtlSessionStep(buckets: seq<Bucket>)
    requires |buckets| > 0
    ensures AllHaveCtlSession(buckets) <==>
              AllHaveCtlSession(buckets[..|buckets| - 1]) && HasCtlSession(buckets[|buckets| - 1])
  {
    var prefix := buckets[..|buckets| - 1];
    assert forall i :: 0 <= i < |prefix| ==> buckets[i] == prefix[i];
  }

  /** parseUEME succeeds exactly when every bucket holds a 1612-byte
      UEME_CTLSESSION. */
  lemma {:induction false} ParseUemeSucceeds(buckets: seq<Bucket>)
    ensures ParseUeme(buckets).Ok? <==> AllHaveCtlSession(buckets)
  {
    if |buckets| > 0 {
      ParseUemeStep(buckets);
      AllHaveCtlSessionStep(buckets);
      ParseUemeSucceeds(buckets[..|buckets| - 1]);
    }
  }

  /** Entry i of parseUEME's list is bucket i's GUID with the aggregate
      decoded from that bucket's UEME_CTLSESSION value. */
  lemma {:induction false} ParseUemeEntry(buckets: seq<Bucket>, i: nat)
    requires ParseUeme(buckets).Ok? && i < |buckets|
    ensures SessionOf(buckets[i]) == Ok(ParseUeme(buckets).value[i])
  {
    var prefix := buckets[..|buckets| - 1];
    ParseUemeOkStep(buckets);
    var last := SessionOf(buckets[|buckets| - 1]).value;
    var es, ps := ParseUeme(buckets).value, ParseUeme(prefix).value;
    assert es == ps + [last];
    if i < |prefix| {
      ParseUemeEntry(prefix, i);
      assert prefix[i] == buckets[i] && es[i] == ps[i];
    } else {
      assert es[i] == last;
    }
  }

  /** parseUEME raises the error of the first bucket whose UEME_CTLSESSION
      is missing or of the wrong size, whatever the buckets after it hold. */
  lemma {:induction false} ParseUemeFirstError(buckets: seq<Bucket>, i: nat)
    requires i < |buckets| && SessionOf(buckets[i]).Err?
    requires forall j :: 0 <= j < i ==> SessionOf(buckets[j]).Ok?
    ensures ParseUeme(buckets) == Err(SessionOf(buckets[i]).error)
  {
    ParseUemePrefixOk(buckets, i);
    var upto := buckets[..i + 1];
    assert upto[..i] == buckets[..i] && upto[i] == buckets[i];
    ParseUemeErrStep(upto);
    ParseUemeErrPersists(buckets, i + 1);
  }

  /** Buckets that all hold a usable UEME_CTLSESSION parse without error. */
  lemma {:induction false} ParseUemePrefixOk(buckets: seq<Bucket>, i: nat)
    requires i <= |buckets| && forall j :: 0 <= j < i ==> SessionOf(buckets[j]).Ok?
    ensures ParseUeme(buckets[..i]).Ok?
  {
    var prefix := buckets[..i];
    forall j | 0 <= j < |prefix| ensures HasCtlSession(prefix[j]) {
      assert prefix[j] == buckets[j];
    }
    ParseUemeSucceeds(prefix);
  }

  /** A bucket without a usable UEME_CTLSESSION after buckets that all have
      one makes parseUEME raise that bucket's error. */
  lemma ParseUemeErrStep(buckets: seq<Bucket>)
    requires |buckets| > 0 && ParseUeme(buckets[..|buckets| - 1]).Ok?
    requires SessionOf(buckets[|buckets| - 1]).Err?
    ensures ParseUeme(buckets) == Err(SessionOf(buckets[|buckets| - 1]).error)
  {
  }

  lemma {:induction false} ParseUemeErrPersists(buckets: seq<Bucket>, i: nat)
    requires i <= |buckets| && ParseUeme(buckets[..i]).Err?
    ensures ParseUeme(buckets) == ParseUeme(buckets[..i])
    decreases |buckets| - i
  {
    if i == |buckets| {
      assert buckets[..i] == buckets;
    } else {
      assert buckets[..i + 1][..i] == buckets[..i];
      ParseUemeErrPersists(buckets, i + 1);
    }
  }

  /** A successful parseUEME extends the list of the buckets before the last. */
  lemma ParseUemeOkStep(buckets: seq<Bucket>)
    requires |buckets| > 0 && ParseUeme(buckets).Ok?
    ensures && ParseUeme(buckets[..|buckets| - 1]).Ok?
            && SessionOf(buckets[|buckets| - 1]).Ok?
            && ParseUeme(buckets).value
               == ParseUeme(buckets[..|buckets| - 1]).value + [SessionOf(buckets[|buckets| - 1]).value]
  {
  }

  /** After parseUEME succeeds, every bucket's GUID has an entry, so the
      lookup of line 127-131 never fails. */
  lemma SessionsCoverBuckets(buckets: seq<Bucket>)
    requires ParseUeme(buckets).Ok?
    ensures AllFound(buckets, ParseUeme(buckets).value)
  {
    var es := ParseUeme(buckets).value;
    forall i | 0 <= i < |buckets| ensures SearchSession(es, buckets[i].guid).Some? {
      ParseUemeEntry(buckets, i);
      assert es[i].guid == buckets[i].guid;
    }
  }

  /** An entry whose GUID no other entry shares is the one found for it. */
  lemma {:induction false} UniqueGuidFound(es: seq<SessionEntry>, i: nat)
    requires i < |es|
    requires forall j :: 0 <= j < |es| && j != i ==> es[j].guid != es[i].guid
    ensures SearchSession(es, es[i].guid) == Some(es[i].aggregate)
  {
    if i < |es| - 1 {
      var prefix := es[..|es| - 1];
      assert forall j :: 0 <= j < |prefix| ==> prefix[j] == es[j];
      UniqueGuidFound(prefix, i);
    }
  }

  /** With distinct GUIDs, each bucket's statistics use its own UEME_CTLSESSION. */
  lemma OwnAggregateUsed(buckets: seq<Bucket>, i: nat)
    requires ParseUeme(buckets).Ok? && i < |buckets|
    requires forall j, k :: 0 <= j < k < |buckets| ==> buckets[j].guid != buckets[k].guid
    ensures SearchSession(ParseUeme(buckets).value, buckets[i].guid) == Some(ParseUeme(buckets).value[i].aggregate)
  {
    var es := ParseUeme(buckets).value;
    ParseUemeEntry(buckets, i);
    forall j | 0 <= j < |es| && j != i ensures es[j].guid != es[i].guid {
      ParseUemeEntry(buckets, j);
    }
    UniqueGuidFound(es, i);
  }

  /** The outcome of main's two passes: the rows and `ua_type` of
      parseValues, and the UEME list of parseUEME. */
  datatype Outcome = Outcome(parsed: Parsed, sessions: seq<SessionEntry>)

  /** main, lines 33-35: parseUEME over all buckets, then parseValues. */
  method Run(buckets: seq<Bucket>) returns (r: Result<Outcome, ParseError>)
    ensures ParseUeme(buckets).Err? ==> r == Err(ParseUeme(buckets).error)
    ensures ParseUeme(buckets).Ok? ==>
              var p := ParseBuckets(buckets, ParseUeme(buckets).value);
              && (p.Err? ==> r == Err(p.error))
              && (p.Ok? ==> r == Ok(Outcome(Parsed(p.value, UaTypeOf(AllKept(buckets))), ParseUeme(buckets).value)))
    ensures r.Err? ==> !r.error.NoSession?
    ensures r.Ok? ==> && r.value.sessions == ParseUeme(buckets).value
                      && RowsOf(r.value.parsed.records, AllKept(buckets))
                      && r.value.parsed.uaType == UaTypeOf(AllKept(buckets))
  {
    var ueme := ParseUeme(buckets);
    if ueme.Err? {
      return Err(ueme.error);
    }
    SessionsCoverBuckets(buckets);
    ParseBucketsRows(buckets, ueme.value);
    ParseBucketsNoSession(buckets, ueme.value);
    var parsed := ParseValues(buckets, ueme.value);
    match parsed
    case Err(e) => return Err(e);
    case Ok(p) => return Ok(Outcome(p, ueme.value));
  }
}

=== FILE: duration.dfy ===
/** convertFocusTimetoHumanReadable (userassist_parser.py:181-193): a focus
    time in milliseconds split into days, hours, minutes, seconds and
    milliseconds by floor division and modulo. Python's `//` and `%` with a
    positive divisor agree with Dafny's Euclidean `/` and `%`, so negative
    int32 focus times are covered exactly as well. */
module Duration {

  datatype Breakdown = Breakdown(days: int, hours: int, minutes: int, seconds: int, milliseconds: int)

  /** Every unit below days is within its natural range. */
  predicate Normalized(b: Breakdown)
  {
    && 0 <= b.milliseconds < 1000
    && 0 <= b.seconds < 60
    && 0 <= b.minutes < 60
    && 0 <= b.hours < 24
  }

  /** The number of milliseconds a breakdown denotes. */
  function TotalMilliseconds(b: Breakdown): int
  {
    (((b.days * 24 + b.hours) * 60 + b.minutes) * 60 + b.seconds) * 1000 + b.milliseconds
  }

  /** The (days, hours, minutes, seconds, milliseconds) tuple of the source. */
  function FocusBreakdown(focusTime: int): (b: Breakdown)
    ensures Normalized(b)
    ensures TotalMilliseconds(b) == focusTime
  {
    var milliseconds := focusTime % 1000;
    var totalSeconds := focusTime / 1000;
    var seconds := totalSeconds % 60;
    var totalMinutes := totalSeconds / 60;
    var minutes := totalMinutes % 60;
    var totalHours := totalMinutes / 60;
    var hours := totalHours % 24;
    var days := totalHours / 24;
    Breakdown(days, hours, minutes, seconds, milliseconds)
  }

  /** A normalized breakdown is determined by the milliseconds it denotes, so
      FocusBreakdown is the only function with its contract. */
  lemma BreakdownUnique(b: Breakdown)
    requires Normalized(b)
    ensures FocusBreakdown(TotalMilliseconds(b)) == b
  {
    var t := TotalMilliseconds(b);
    var s := (b.days * 24 + b.hours) * 60 + b.minutes;
    assert t == (s * 60 + b.seconds) * 1000 + b.milliseconds;
    assert t / 1000 == s * 60 + b.seconds;
    assert (t / 1000) / 60 == s;
    assert s / 60 == b.days * 24 + b.hours;
    assert (b.days * 24 + b.hours) / 24 == b.days;
  }
}

=== FILE: filetime.dfy ===
/** filetime_to_datetime (userassist_parser.py:232-244): a FILETIME, a count
    of 100-nanosecond ticks since 1601-01-01T00:00:00, rendered the way
    `datetime.isoformat()` renders it, followed by `Z`. `timedelta` rounds
    the seconds to the nearest microsecond, ties to even, and the rounding
    carries into the second, the day and the year. Python's `datetime`
    only holds years 1 through 9999; outside them the addition raises
    OverflowError, which is `None` here. */
module Filetime {
  import opened Results
  import opened Calendar
  import opened Decimal

  const TicksPerSecond: int := 10_000_000
  const TicksPerMicrosecond: int := 10
  const MicrosPerSecond: int := 1_000_000
  const SecondsPerDay: int := 86400

  /** Day numbers of 0001-01-01 and 10000-01-01: the span `datetime` can hold. */
  const FirstDay: int := -584388
  const EndDay: int := 3067671

  datatype DateTime = DateTime(date: Date, hour: int, minute: int, second: int, microsecond: int)

  predicate ValidDateTime(t: DateTime)
  {
    && ValidDate(t.date)
    && 0 <= t.hour < 24 && 0 <= t.minute < 60 && 0 <= t.second < 60
    && 0 <= t.microsecond < 1_000_000
  }

  /** Whole seconds from the FILETIME epoch to `t`. */
  function SecondsSinceEpoch(t: DateTime): int
    requires ValidDateTime(t)
  {
    DayNumber(t.date) * SecondsPerDay + t.hour * 3600 + t.minute * 60 + t.second
  }

  /** The ticks of a date and time, to the microsecond. */
  function TicksOf(t: DateTime): int
    requires ValidDateTime(t)
  {
    SecondsSinceEpoch(t) * TicksPerSecond + t.microsecond * TicksPerMicrosecond
  }

  /** The ticks rounded to whole microseconds, ties to even, as `timedelta`
      rounds its seconds argument. */
  function RoundedMicros(ticks: int): (us: int)
    ensures -5 <= ticks - TicksPerMicrosecond * us <= 5
    ensures ticks - TicksPerMicrosecond * us == 5 || ticks - TicksPerMicrosecond * us == -5 ==> us % 2 == 0
  {
    var q := ticks / TicksPerMicrosecond;
    var r := ticks % TicksPerMicrosecond;
    if r > 5 || (r == 5 && q % 2 == 1) then q + 1 else q
  }

  /** Nearest with ties to even determines the rounded value. */
  lemma RoundedMicrosUnique(ticks: int, us: int)
    requires -5 <= ticks - TicksPerMicrosecond * us <= 5
    requires ticks - TicksPerMicrosecond * us == 5 || ticks - TicksPerMicrosecond * us == -5 ==> us % 2 == 0
    ensures RoundedMicros(ticks) == us
  {
  }

  /** The date and time `ticks` denotes: the ticks rounded to microseconds,
      added to 1601-01-01. */
  function ToDateTime(ticks: int): (t: DateTime)
    ensures ValidDateTime(t)
    ensures SecondsSinceEpoch(t) * MicrosPerSecond + t.microsecond == RoundedMicros(ticks)
  {
    var us := RoundedMicros(ticks);
    var seconds := us / MicrosPerSecond;
    var days := seconds / SecondsPerDay;
    var clock := ClockOf(seconds % SecondsPerDay);
    assert seconds == days * SecondsPerDay + seconds % SecondsPerDay;
    DateTime(DateOf(days), clock.0, clock.1, clock.2, us % MicrosPerSecond)
  }

  /** Hours, minutes and seconds of a second of the day. */
  function ClockOf(secondOfDay: int): (hms: (int, int, int))
    requires 0 <= secondOfDay < SecondsPerDay
    ensures 0 <= hms.0 < 24 && 0 <= hms.1 < 60 && 0 <= hms.2 < 60
    ensures hms.0 * 3600 + hms.1 * 60 + hms.2 == secondOfDay
  {
    (secondOfDay / 3600, (secondOfDay % 3600) / 60, secondOfDay % 60)
  }

  /** ToDateTime inverts TicksOf: no two valid date-times share their ticks. */
  lemma ToDateTimeOfTicks(t: DateTime)
    requires ValidDateTime(t)
    ensures ToDateTime(TicksOf(t)) == t
  {
    var ticks := TicksOf(t);
    var us := SecondsSinceEpoch(t) * MicrosPerSecond + t.microsecond;
    assert ticks == TicksPerMicrosecond * us;
    RoundedMicrosUnique(ticks, us);
    SameInstantSameDateTime(ToDateTime(ticks), t);
  }

  /** Two valid date-times at the same microsecond after the epoch are equal. */
  lemma SameInstantSameDateTime(a: DateTime, b: DateTime)
    requires ValidDateTime(a) && ValidDateTime(b)
    requires SecondsSinceEpoch(a) * MicrosPerSecond + a.microsecond
             == SecondsSinceEpoch(b) * MicrosPerSecond + b.microsecond
    ensures a == b
  {
    SplitMicros(SecondsSinceEpoch(a), a.microsecond);
    SplitMicros(SecondsSinceEpoch(b), b.microsecond);
    var sodA := a.hour * 3600 + a.minute * 60 + a.second;
    var sodB := b.hour * 3600 + b.minute * 60 + b.second;
    SplitSeconds(DayNumber(a.date), sodA);
    SplitSeconds(DayNumber(b.date), sodB);
    DayNumberInjective(a.date, b.date);
    ClockOfUnique(a.hour, a.minute, a.second);
    ClockOfUnique(b.hour, b.minute, b.second);
  }

  /** Whole seconds and the microsecond remainder come back out of their sum. */
  lemma SplitMicros(secs: int, micro: int)
    requires 0 <= micro < MicrosPerSecond
    ensures (secs * MicrosPerSecond + micro) / MicrosPerSecond == secs
    ensures (secs * MicrosPerSecond + micro) % MicrosPerSecond == micro
  {
  }

  /** An in-range clock is the one ClockOf computes from its second of the day. */
  lemma ClockOfUnique(h: int, m: int, s: int)
    requires 0 <= h < 24 && 0 <= m < 60 && 0 <= s < 60
    ensures ClockOf(h * 3600 + m * 60 + s) == (h, m, s)
  {
  }

  /** Whole days and the second of the day come back out of their sum. */
  lemma SplitSeconds(days: int, sod: int)
    requires 0 <= sod < SecondsPerDay
    ensures (days * SecondsPerDay + sod) / SecondsPerDay == days
    ensures (days * SecondsPerDay + sod) % SecondsPerDay == sod
  {
  }

  /** `YYYY-MM-DD`. */
  function DateText(d: Date): (s: string)
    requires ValidDate(d) && 1 <= d.year <= 9999
    ensures |s| == 10
  {
    FixedDigits(d.year, 4) + "-" + FixedDigits(d.month, 2) + "-" + FixedDigits(d.day, 2)
  }

  /** `HH:MM:SS`. */
  function TimeText(t: DateTime): (s: string)
    requires ValidDateTime(t)
    ensures |s| == 8
  {
    FixedDigits(t.hour, 2) + ":" + FixedDigits(t.minute, 2) + ":" + FixedDigits(t.second, 2)
  }

  /** `.ffffff` when the microseconds are not zero, as isoformat() omits them otherwise. */
  function FractionText(t: DateTime): (s: string)
    requires ValidDateTime(t)
    ensures |s| == 0 || |s| == 7
  {
    if t.microsecond != 0 then "." + FixedDigits(t.microsecond, 6) else ""
  }

  /** `isoformat()` followed by the `Z` the source appends. */
  function RenderIso(t: DateTime): (s: string)
    requires ValidDateTime(t) && 1 <= t.date.year <= 9999
    ensures |s| == 20 || |s| == 27
    ensures |s| == 20 <==> t.microsecond == 0
    ensures s[|s| - 1] == 'Z'
  {
    DateText(t.date) + "T" + TimeText(t) + FractionText(t) + "Z"
  }

  /** The number in the digit field s[lo..hi], if it is all digits. */
  function Field(s: string, lo: nat, hi: nat): Option<nat>
    requires lo <= hi <= |s|
  {
    if AllDigits(s[lo..hi]) then Some(DigitsValue(s[lo..hi])) else None
  }

  /** Reads `YYYY-MM-DD`. */
  function ParseDate(s: string): Option<Date>
  {
    if |s| != 10 || s[4] != '-' || s[7] != '-' then None
    else match (Field(s, 0, 4), Field(s, 5, 7), Field(s, 8, 10))
      case (Some(y), Some(m), Some(d)) => Some(Date(y, m, d))
      case _ => None
  }

  /** Reads `HH:MM:SS`. */
  function ParseTime(s: string): Option<(nat, nat, nat)>
  {
    if |s| != 8 || s[2] != ':' || s[5] != ':' then None
    else match (Field(s, 0, 2), Field(s, 3, 5), Field(s, 6, 8))
      case (Some(h), Some(m), Some(sec)) => Some((h, m, sec))
      case _ => None
  }

  /** Reads `` (zero microseconds) or `.ffffff`. */
  function ParseFraction(s: string): Option<nat>
  {
    if |s| == 0 then Some(0)
    else if |s| != 7 || s[0] != '.' then None
    else Field(s, 1, 7)
  }

  /** Reads back a timestamp of the shape RenderIso writes. */
  function ParseIso(s: string): Option<DateTime>
  {
    if !(|s| == 20 || |s| == 27) || s[10] != 'T' || s[|s| - 1] != 'Z' then None
    else match (ParseDate(s[0..10]), ParseTime(s[11..19]), ParseFraction(s[19..|s| - 1]))
      case (Some(d), Some((h, m, sec)), Some(us)) => Some(DateTime(d, h, m, sec, us))
      case _ => None
  }

  lemma ParseDateText(d: Date)
    requires ValidDate(d) && 1 <= d.year <= 9999
    ensures ParseDate(DateText(d)) == Some(d)
  {
    var s := DateText(d);
    assert s[0..4] == FixedDigits(d.year, 4);
    assert s[5..7] == FixedDigits(d.month, 2);
    assert s[8..10] == FixedDigits(d.day, 2);
    FixedDigitsRoundTrip(d.year, 4);
    FixedDigitsRoundTrip(d.month, 2);
    FixedDigitsRoundTrip(d.day, 2);
  }

  lemma ParseTimeText(t: DateTime)
    requires ValidDateTime(t)
    ensures ParseTime(TimeText(t)) == Some((t.hour, t.minute, t.second))
  {
    var s := TimeText(t);
    assert s[0..2] == FixedDigits(t.hour, 2);
    assert s[3..5] == FixedDigits(t.minute, 2);
    assert s[6..8] == FixedDigits(t.second, 2);
    FixedDigitsRoundTrip(t.hour, 2);
    FixedDigitsRoundTrip(t.minute, 2);
    FixedDigitsRoundTrip(t.second, 2);
  }

  lemma ParseFractionText(t: DateTime)
    requires ValidDateTime(t)
    ensures ParseFraction(FractionText(t)) == Some(t.microsecond)
  {
    if t.microsecond != 0 {
      var s := FractionText(t);
      assert s[1..7] == FixedDigits(t.microsecond, 6);
      FixedDigitsRoundTrip(t.microsecond, 6);
    }
  }

  /** The rendering loses nothing: reading it back gives the date-time. */
  lemma ParseRenderIso(t: DateTime)
    requires ValidDateTime(t) && 1 <= t.date.year <= 9999
    ensures ParseIso(RenderIso(t)) == Some(t)
  {
    var s := RenderIso(t);
    assert s[0..10] == DateText(t.date);
    assert s[11..19] == TimeText(t);
    assert s[19..|s| - 1] == FractionText(t);
    ParseDateText(t.date);
    ParseTimeText(t);
    ParseFractionText(t);
  }

  /** The day ToDateTime lands on is the floor of the rounded microseconds
      in whole days. */
  lemma ToDateTimeDay(ticks: int)
    ensures ToDateTime(ticks).date == DateOf(RoundedMicros(ticks) / MicrosPerSecond / SecondsPerDay)
  {
  }

  /** filetime_to_datetime: `None` where Python raises OverflowError because
      the year leaves 1..9999. */
  function FiletimeToIso(ticks: int): (r: Option<string>)
    ensures r.Some? ==> |r.value| > 0 && r.value[|r.value| - 1] == 'Z'
  {
    var t := ToDateTime(ticks);
    if 1 <= t.date.year <= 9999 then Some(RenderIso(t)) else None
  }

  /** The conversion raises exactly when the whole days of the rounded
      FILETIME fall outside 0001-01-01 .. 9999-12-31, the span `datetime`
      can hold. */
  lemma FiletimeToIsoDefined(ticks: int)
    ensures FiletimeToIso(ticks).Some? <==> FirstDay <= RoundedMicros(ticks) / MicrosPerSecond / SecondsPerDay < EndDay
  {
    ToDateTimeDay(ticks);
    YearRange(RoundedMicros(ticks) / MicrosPerSecond / SecondsPerDay);
    DatetimeSpan();
  }

  lemma DatetimeSpan()
    ensures DaysBeforeYear(1) == FirstDay && DaysBeforeYear(10000) == EndDay
  {
  }

  /** The text filetime_to_datetime returns reads back as the date-time
      the rounded ticks denote. */
  lemma FiletimeToIsoReadsBack(ticks: int)
    requires FiletimeToIso(ticks).Some?
    ensures ParseIso(FiletimeToIso(ticks).value) == Some(ToDateTime(ticks))
  {
    ParseRenderIso(ToDateTime(ticks));
  }

  /** The FILETIME of any date-time in years 1..9999 renders as that date-time. */
  lemma FiletimeToIsoOfTicks(t: DateTime)
    requires ValidDateTime(t) && 1 <= t.date.year <= 9999
    ensures FiletimeToIso(TicksOf(t)) == Some(RenderIso(t))
  {
    ToDateTimeOfTicks(t);
  }

  /** Midnight renders with a zero clock and no fraction. */
  lemma MidnightRendering(d: Date)
    requires ValidDate(d) && 1 <= d.year <= 9999
    ensures RenderIso(DateTime(d, 0, 0, 0, 0)) == DateText(d) + "T00:00:00Z"
  {
    assert FixedDigits(0, 2) == "00";
  }

  /** Midnight on the first of January: only the year's digits vary. */
  lemma NewYearRendering(year: int)
    requires 1 <= year <= 9999
    ensures RenderIso(DateTime(Date(year, 1, 1), 0, 0, 0, 0)) == FixedDigits(year, 4) + "-01-01T00:00:00Z"
  {
    MidnightRendering(Date(year, 1, 1));
    assert FixedDigits(1, 2) == "01";
    var y := FixedDigits(year, 4);
    assert y + "-" + "01" + "-" + "01" + "T00:00:00Z" == y + "-01-01T00:00:00Z";
  }

  // The four literal lemmas below are proved apart from the rendering
  // lemmas that use them: inside those lemmas' contexts the same string
  // and digit facts run out of resource.

  /** Joins the year digits to the fixed text of 1 January at midnight. */
  lemma EpochText(y: string)
    requires y == "1601"
    ensures y + "-01-01T00:00:00Z" == "1601-01-01T00:00:00Z"
  {
  }

  /** The same join for 1970. */
  lemma UnixEpochText(y: string)
    requires y == "1970"
    ensures y + "-01-01T00:00:00Z" == "1970-01-01T00:00:00Z"
  {
  }

  /** Evaluates the four year digits of 1601. */
  lemma EpochYearDigits()
    ensures FixedDigits(1601, 4) == "1601"
  {
  }

  /** Evaluates the four year digits of 1970. */
  lemma UnixEpochYearDigits()
    ensures FixedDigits(1970, 4) == "1970"
  {
  }

  /** A FILETIME of zero is the epoch itself. */
  lemma EpochRendering()
    ensures FiletimeToIso(0) == Some("1601-01-01T00:00:00Z")
  {
    var t := DateTime(Date(1601, 1, 1), 0, 0, 0, 0);
    assert TicksOf(t) == 0;
    FiletimeToIsoOfTicks(t);
    NewYearRendering(1601);
    EpochYearDigits();
    EpochText(FixedDigits(1601, 4));
  }

  /** The FILETIME of the Unix epoch. */
  lemma UnixEpochRendering()
    ensures FiletimeToIso(116444736000000000) == Some("1970-01-01T00:00:00Z")
  {
    var t := DateTime(Date(1970, 1, 1), 0, 0, 0, 0);
    assert DaysBeforeYear(1970) == 134774;
    assert TicksOf(t) == 116444736000000000;
    FiletimeToIsoOfTicks(t);
    NewYearRendering(1970);
    UnixEpochYearDigits();
    UnixEpochText(FixedDigits(1970, 4));
  }

  /** ToDateTime depends on the ticks only through their rounding. */
  lemma SameMicrosSameDateTime(a: int, b: int)
    requires RoundedMicros(a) == RoundedMicros(b)
    ensures ToDateTime(a) == ToDateTime(b)
  {
  }

  /** A FILETIME half a tick short of the next second rounds up into it. */
  lemma RoundingCarriesIntoSecond()
    ensures ToDateTime(9_999_999) == DateTime(Date(EpochYear, 1, 1), 0, 0, 1, 0)
  {
    var t := DateTime(Date(EpochYear, 1, 1), 0, 0, 1, 0);
    assert TicksOf(t) == 10_000_000;
    ToDateTimeOfTicks(t);
    assert RoundedMicros(9_999_999) == RoundedMicros(10_000_000) == 1_000_000;
    SameMicrosSameDateTime(9_999_999, 10_000_000);
  }

  /** A FILETIME one tick before the epoch rounds to the epoch itself, not
      into the previous day. */
  lemma RoundingCarriesBackToEpoch()
    ensures ToDateTime(-1) == DateTime(Date(EpochYear, 1, 1), 0, 0, 0, 0)
  {
    var t := DateTime(Date(EpochYear, 1, 1), 0, 0, 0, 0);
    assert TicksOf(t) == 0;
    ToDateTimeOfTicks(t);
    assert RoundedMicros(-1) == RoundedMicros(0) == 0;
    SameMicrosSameDateTime(-1, 0);
  }

  /** Six ticks round to one microsecond, so a fraction is shown. */
  lemma RoundingShowsFraction()
    ensures ToDateTime(6).microsecond == 1
  {
    assert RoundedMicros(6) == 1;
  }
}

=== FILE: records.dfy ===
/** The two fixed layouts of a UserAssist value (userassist_parser.py:154-172):
    the 16-byte `'<2iq'` layout of the XP era and the 72-byte `'<4i10fiqi'`
    layout of the Windows 7 era, with encoders that invert the decoders. */
module Records {
  import opened Seqs
  import opened LittleEndian

  const LegacySize: nat := 16
  const ModernSize: nat := 72
  const SlotCount: nat := 10

  /** `'<2iq'`: session id, run count and the last-used FILETIME in raw ticks. */
  datatype LegacyRecord = LegacyRecord(sessionId: int32, count: int32, lastUsed: int64)

  /** The ten `f` slots ("r0 value[0..9]") kept as opaque 32-bit words. */
  type Slots = s: seq<uint32> | |s| == SlotCount witness [0, 0, 0, 0, 0, 0, 0, 0, 0, 0]

  /** `'<4i10fiqi'`. */
  datatype ModernRecord = ModernRecord(
    sessionId: int32,
    runCount: int32,
    focusCount: int32,
    focusTime: int32,
    slots: Slots,
    rewriteCounter: int32,
    lastUsed: int64,
    trailing: int32)

  /** The words of `bs`, four bytes each, in order. */
  function DecodeWords(bs: seq<byte>): (ws: seq<uint32>)
    requires |bs| % 4 == 0
    ensures |ws| == |bs| / 4
  {
    if |bs| == 0 then [] else [Word32At(bs, 0)] + DecodeWords(bs[4..])
  }

  function EncodeWords(ws: seq<uint32>): (bs: seq<byte>)
    ensures |bs| == 4 * |ws|
  {
    if |ws| == 0 then [] else EncodeWord32(ws[0]) + EncodeWords(ws[1..])
  }

  /** Word i of a decoded run sits at byte offset 4*i. */
  lemma {:induction false} DecodeWordsAt(bs: seq<byte>, i: nat)
    requires |bs| % 4 == 0 && i < |bs| / 4
    ensures DecodeWords(bs)[i] == Word32At(bs, 4 * i)
  {
    if i > 0 {
      DecodeWordsAt(bs[4..], i - 1);
      assert bs[4..][4 * (i - 1)..4 * (i - 1) + 4] == bs[4 * i..4 * i + 4];
    }
  }

  lemma {:induction false} WordsRoundTrip(ws: seq<uint32>)
    ensures DecodeWords(EncodeWords(ws)) == ws
  {
    if |ws| > 0 {
      var e := EncodeWords(ws);
      assert e[4..] == EncodeWords(ws[1..]);
      Word32RoundTrip(e, 0, ws[0]);
      WordsRoundTrip(ws[1..]);
    }
  }

  lemma {:induction false} WordBytesRoundTrip(bs: seq<byte>)
    requires |bs| % 4 == 0
    ensures EncodeWords(DecodeWords(bs)) == bs
  {
    if |bs| > 0 {
      EncodeWord32RoundTrip(bs, 0);
      WordBytesRoundTrip(bs[4..]);
      assert bs == bs[0..4] + bs[4..];
    }
  }

  /** struct.unpack('<2iq', bs). */
  function DecodeLegacy(bs: seq<byte>): LegacyRecord
    requires |bs| == LegacySize
  {
    LegacyRecord(Int32At(bs, 0), Int32At(bs, 4), Int64At(bs, 8))
  }

  /** struct.pack('<2iq', ...): the inverse of DecodeLegacy. */
  function EncodeLegacy(r: LegacyRecord): (bs: seq<byte>)
    ensures |bs| == LegacySize
  {
    EncodeInt32(r.sessionId) + EncodeInt32(r.count) + EncodeInt64(r.lastUsed)
  }

  /** Decoding the 16-byte encoding of (session id, count, ticks) returns
      exactly those values; the last-used field stays raw ticks. */
  lemma LegacyRoundTrip(r: LegacyRecord)
    ensures DecodeLegacy(EncodeLegacy(r)) == r
  {
    var e := EncodeLegacy(r);
    assert e[0..4] == EncodeInt32(r.sessionId);
    assert e[4..8] == EncodeInt32(r.count);
    assert e[8..16] == EncodeInt64(r.lastUsed);
    Int32RoundTrip(e, 0, r.sessionId);
    Int32RoundTrip(e, 4, r.count);
    Int64RoundTrip(e, 8, r.lastUsed);
  }

  /** Every 16-byte value is the encoding of the record decoded from it, so
      the decoder loses no information. */
  lemma LegacyBytesRoundTrip(bs: seq<byte>)
    requires |bs| == LegacySize
    ensures EncodeLegacy(DecodeLegacy(bs)) == bs
  {
    EncodeInt32RoundTrip(bs, 0);
    EncodeInt32RoundTrip(bs, 4);
    EncodeInt64RoundTrip(bs, 8);
    assert bs == bs[0..4] + bs[4..8] + bs[8..16];
  }

  /** struct.unpack('<4i10fiqi', bs): raw[0..3] at offsets 0, 4, 8, 12, the
      ten slots raw[4..13] at 16..55, raw[14] at 56, raw[15] at 60, raw[16] at 68. */
  function DecodeModern(bs: seq<byte>): ModernRecord
    requires |bs| == ModernSize
  {
    ModernRecord(
      Int32At(bs, 0), Int32At(bs, 4), Int32At(bs, 8), Int32At(bs, 12),
      DecodeWords(bs[16..56]),
      Int32At(bs, 56), Int64At(bs, 60), Int32At(bs, 68))
  }

  /** struct.pack('<4i10fiqi', ...): the inverse of DecodeModern. */
  function EncodeModern(r: ModernRecord): (bs: seq<byte>)
    ensures |bs| == ModernSize
  {
    EncodeInt32(r.sessionId) + EncodeInt32(r.runCount) + EncodeInt32(r.focusCount)
    + EncodeInt32(r.focusTime) + EncodeWords(r.slots) + EncodeInt32(r.rewriteCounter)
    + EncodeInt64(r.lastUsed) + EncodeInt32(r.trailing)
  }

  /** The fixed offsets of the 72-byte layout. */
  lemma ModernFieldOffsets(bs: seq<byte>)
    requires |bs| == ModernSize
    ensures DecodeModern(bs).sessionId == Int32At(bs, 0)
    ensures DecodeModern(bs).runCount == Int32At(bs, 4)
    ensures DecodeModern(bs).focusCount == Int32At(bs, 8)
    ensures DecodeModern(bs).focusTime == Int32At(bs, 12)
    ensures forall i :: 0 <= i < SlotCount ==> DecodeModern(bs).slots[i] == Word32At(bs, 16 + 4 * i)
    ensures DecodeModern(bs).rewriteCounter == Int32At(bs, 56)
    ensures DecodeModern(bs).lastUsed == Int64At(bs, 60)
    ensures DecodeModern(bs).trailing == Int32At(bs, 68)
  {
    forall i | 0 <= i < SlotCount
      ensures DecodeModern(bs).slots[i] == Word32At(bs, 16 + 4 * i)
    {
      DecodeWordsAt(bs[16..56], i);
      SliceOfSlice(bs, 16, 56, 4 * i, 4 * i + 4);
    }
  }

  /** Encoding then decoding returns every field unchanged, with exactly ten slots. */
  lemma ModernRoundTrip(r: ModernRecord)
    ensures DecodeModern(EncodeModern(r)) == r
    ensures |DecodeModern(EncodeModern(r)).slots| == SlotCount
  {
    var e := EncodeModern(r);
    assert e[0..4] == EncodeInt32(r.sessionId);
    assert e[4..8] == EncodeInt32(r.runCount);
    assert e[8..12] == EncodeInt32(r.focusCount);
    assert e[12..16] == EncodeInt32(r.focusTime);
    assert e[16..56] == EncodeWords(r.slots);
    assert e[56..60] == EncodeInt32(r.rewriteCounter);
    assert e[60..68] == EncodeInt64(r.lastUsed);
    assert e[68..72] == EncodeInt32(r.trailing);
    Int32RoundTrip(e, 0, r.sessionId);
    Int32RoundTrip(e, 4, r.runCount);
    Int32RoundTrip(e, 8, r.focusCount);
    Int32RoundTrip(e, 12, r.focusTime);
    WordsRoundTrip(r.slots);
    Int32RoundTrip(e, 56, r.rewriteCounter);
    Int64RoundTrip(e, 60, r.lastUsed);
    Int32RoundTrip(e, 68, r.trailing);
  }

  /** Every 72-byte value is the encoding of the record decoded from it. */
  lemma ModernBytesRoundTrip(bs: seq<byte>)
    requires |bs| == ModernSize
    ensures EncodeModern(DecodeModern(bs)) == bs
  {
    var r := DecodeModern(bs);
    var header := EncodeInt32(r.sessionId) + EncodeInt32(r.runCount) + EncodeInt32(r.focusCount)
                  + EncodeInt32(r.focusTime);
    var tail := EncodeInt32(r.rewriteCounter) + EncodeInt64(r.lastUsed) + EncodeInt32(r.trailing);
    ModernHeaderBytes(bs);
    WordBytesRoundTrip(bs[16..56]);
    ModernTailBytes(bs);
    assert EncodeModern(r) == header + EncodeWords(r.slots) + tail;
    assert bs == bs[0..16] + bs[16..56] + bs[56..72];
  }

  lemma ModernHeaderBytes(bs: seq<byte>)
    requires |bs| == ModernSize
    ensures EncodeInt32(Int32At(bs, 0)) + EncodeInt32(Int32At(bs, 4)) + EncodeInt32(Int32At(bs, 8))
            + EncodeInt32(Int32At(bs, 12)) == bs[0..16]
  {
    EncodeInt32RoundTrip(bs, 0);
    EncodeInt32RoundTrip(bs, 4);
    EncodeInt32RoundTrip(bs, 8);
    EncodeInt32RoundTrip(bs, 12);
    assert bs[0..8] == bs[0..4] + bs[4..8];
    assert bs[0..12] == bs[0..8] + bs[8..12];
    assert bs[0..16] == bs[0..12] + bs[12..16];
  }

  lemma ModernTailBytes(bs: seq<byte>)
    requires |bs| == ModernSize
    ensures EncodeInt32(Int32At(bs, 56)) + EncodeInt64(Int64At(bs, 60)) + EncodeInt32(Int32At(bs, 68))
            == bs[56..72]
  {
    EncodeInt32RoundTrip(bs, 56);
    EncodeInt64RoundTrip(bs, 60);
    EncodeInt32RoundTrip(bs, 68);
    assert bs[56..68] == bs[56..60] + bs[60..68];
    assert bs[56..72] == bs[56..68] + bs[68..72];
  }
}

=== FILE: results.dfy ===
/** Failure-carrying datatypes shared by the decoders. */
module Results {

  /** An optional value: `None` stands for "absent". */
  datatype Option<+T> = None | Some(value: T)

  /** A computation that either produced a value or raised an error. */
  datatype Result<+T, +E> = Ok(value: T) | Err(error: E)
}

=== FILE: seqs.dfy ===
/** Facts about sequence slices used by the fixed-layout decoders. */
module Seqs {

  /** A slice of a slice is a slice of the original. */
  lemma SliceOfSlice<T>(s: seq<T>, a: nat, b: nat, c: nat, d: nat)
    requires a <= b <= |s| && c <= d <= b - a
    ensures s[a..b][c..d] == s[a + c..a + d]
  {
    var l := s[a..b][c..d];
    var r := s[a + c..a + d];
    assert |l| == |r|;
    forall k | 0 <= k < |l| ensures l[k] == r[k] {
      assert l[k] == s[a..b][c + k];
    }
  }
}

=== FILE: session.dfy ===
/** The UEME_CTLSESSION aggregate (userassist_parser.py:196-229): a
    `'<4i3i520s3i520s3i520s'` blob holding per-GUID session totals and the
    three "NMAX" entries, each with a NUL-padded UTF-16LE executable path,
    and the list search that later finds the aggregate of a GUID. */
module Session {
  import opened Results
  import opened Seqs
  import opened LittleEndian

  /** 4*4 header bytes + 3 * (3*4 + 520) group bytes. */
  const AggregateSize: nat := 1612
  const HeaderSize: nat := 16
  const GroupSize: nat := 532
  const PathFieldSize: nat := 520
  const PathUnits: nat := 260

  /** The name of the value that holds the aggregate. */
  const CtlSessionName: string := "UEME_CTLSESSION"

  /** A decoded path: UTF-16 code units. */
  type Path = seq<uint16>

  datatype NMaxEntry = NMaxEntry(runCount: int32, focusCount: int32, focusTime: int32, path: Path)

  type NMaxTriple = s: seq<NMaxEntry> | |s| == 3
    witness [NMaxEntry(0, 0, 0, []), NMaxEntry(0, 0, 0, []), NMaxEntry(0, 0, 0, [])]

  /** 'stats' (session id, totals) and 'NMAX' of one UEME_CTLSESSION value. */
  datatype Aggregate = Aggregate(
    sessionId: int32,
    totalLaunches: int32,
    totalSwitches: int32,
    totalUserTime: int32,
    nmax: NMaxTriple)

  /** One element of the UEME list: a GUID and the aggregate found under it. */
  datatype SessionEntry = SessionEntry(guid: string, aggregate: Aggregate)

  /** The little-endian code units of a byte field. */
  function CodeUnits(field: seq<byte>): (us: seq<uint16>)
    requires |field| % 2 == 0
    ensures |us| == |field| / 2
    ensures forall i :: 0 <= i < |us| ==> us[i] == Uint16At(field, 2 * i)
  {
    seq(|field| / 2, i requires 0 <= i < |field| / 2 => Uint16At(field, 2 * i))
  }

  function EncodeUnits(us: seq<uint16>): (bs: seq<byte>)
    ensures |bs| == 2 * |us|
  {
    if |us| == 0 then [] else EncodeUint16(us[0]) + EncodeUnits(us[1..])
  }

  lemma {:induction false} EncodeUnitsAt(us: seq<uint16>, i: nat)
    requires i < |us|
    ensures EncodeUnits(us)[2 * i..2 * i + 2] == EncodeUint16(us[i])
  {
    var e := EncodeUnits(us);
    if i == 0 {
      assert e[0..2] == EncodeUint16(us[0]);
    } else {
      EncodeUnitsAt(us[1..], i - 1);
      assert e[2..] == EncodeUnits(us[1..]);
      SliceOfSlice(e, 2, |e|, 2 * (i - 1), 2 * (i - 1) + 2);
    }
  }

  /** Reading the code units of an encoded unit sequence gives it back. */
  lemma UnitsRoundTrip(us: seq<uint16>)
    ensures CodeUnits(EncodeUnits(us)) == us
  {
    var e := EncodeUnits(us);
    forall i | 0 <= i < |us| ensures CodeUnits(e)[i] == us[i] {
      EncodeUnitsAt(us, i);
      Uint16RoundTrip(e, 2 * i, us[i]);
    }
  }

  /** Reading a field as code units loses nothing: encoding the units gives
      the field's bytes back. */
  lemma {:induction false} CodeUnitsRoundTrip(field: seq<byte>)
    requires |field| % 2 == 0
    ensures EncodeUnits(CodeUnits(field)) == field
    decreases |field|
  {
    if |field| > 0 {
      var us := CodeUnits(field);
      var rest := field[2..];
      CodeUnitsRoundTrip(rest);
      assert us[1..] == CodeUnits(rest) by {
        forall i | 0 <= i < |rest| / 2 ensures us[1..][i] == CodeUnits(rest)[i] {
          assert rest[2 * i] == field[2 * i + 2] && rest[2 * i + 1] == field[2 * i + 3];
        }
      }
      EncodeUint16RoundTrip(field, 0);
      assert field == field[0..2] + rest;
    }
  }

  /** `.split('\x00', 1)[0]`: the code units before the first zero unit, or
      all of them when there is none. */
  function TakeUntilNul(us: seq<uint16>): (p: seq<uint16>)
    ensures p <= us
    ensures forall i :: 0 <= i < |p| ==> p[i] != 0
    ensures |p| == |us| || us[|p|] == 0
  {
    if |us| == 0 || us[0] == 0 then [] else [us[0]] + TakeUntilNul(us[1..])
  }

  /** The three properties of TakeUntilNul determine its result: any prefix
      free of zero units that ends at a zero unit or at the end is it. */
  lemma {:induction false} TakeUntilNulUnique(us: seq<uint16>, p: seq<uint16>)
    requires p <= us
    requires forall i :: 0 <= i < |p| ==> p[i] != 0
    requires |p| == |us| || us[|p|] == 0
    ensures TakeUntilNul(us) == p
  {
    var q := TakeUntilNul(us);
    assert forall i :: 0 <= i < |q| ==> us[i] == q[i] != 0;
    assert forall i :: 0 <= i < |p| ==> us[i] == p[i] != 0;
    assert |p| == |q|;
  }

  /** Whatever follows the first terminator never affects the result. */
  lemma PaddingIrrelevant(p: seq<uint16>, pad: seq<uint16>)
    requires forall i :: 0 <= i < |p| ==> p[i] != 0
    ensures TakeUntilNul(p + [0] + pad) == p
  {
    TakeUntilNulUnique(p + [0] + pad, p);
  }

  /** A path that fits the 520-byte field with room for nothing but padding. */
  predicate ValidPath(p: Path)
  {
    |p| <= PathUnits && forall i :: 0 <= i < |p| ==> p[i] != 0
  }

  /** raw[7/11/15].decode('utf-16').split('\x00', 1)[0], over code units. */
  function DecodePath(field: seq<byte>): (p: Path)
    requires |field| == PathFieldSize
    ensures ValidPath(p)
    ensures p <= CodeUnits(field)
    ensures |p| == PathUnits || CodeUnits(field)[|p|] == 0
  {
    TakeUntilNul(CodeUnits(field))
  }

  function Zeros(n: nat): (z: seq<uint16>)
    ensures |z| == n && forall i :: 0 <= i < n ==> z[i] == 0
  {
    seq(n, i => 0)
  }

  /** The 520-byte field of a path: its code units, then zero padding. */
  function EncodePath(p: Path): (field: seq<byte>)
    requires ValidPath(p)
    ensures |field| == PathFieldSize
  {
    EncodeUnits(p + Zeros(PathUnits - |p|))
  }

  lemma PathRoundTrip(p: Path)
    requires ValidPath(p)
    ensures DecodePath(EncodePath(p)) == p
  {
    var us := p + Zeros(PathUnits - |p|);
    UnitsRoundTrip(us);
    TakeUntilNulUnique(us, p);
  }

  /** One NMAX group at `off`: run count, focus count, focus time, path field. */
  function DecodeGroup(bs: seq<byte>, off: nat): NMaxEntry
    requires off + GroupSize <= |bs|
  {
    NMaxEntry(Int32At(bs, off), Int32At(bs, off + 4), Int32At(bs, off + 8),
              DecodePath(bs[off + 12..off + GroupSize]))
  }

  predicate ValidEntry(e: NMaxEntry)
  {
    ValidPath(e.path)
  }

  function EncodeGroup(e: NMaxEntry): (bs: seq<byte>)
    requires ValidEntry(e)
    ensures |bs| == GroupSize
  {
    EncodeInt32(e.runCount) + EncodeInt32(e.focusCount) + EncodeInt32(e.focusTime) + EncodePath(e.path)
  }

  lemma GroupRoundTrip(bs: seq<byte>, off: nat, e: NMaxEntry)
    requires ValidEntry(e)
    requires off + GroupSize <= |bs| && bs[off..off + GroupSize] == EncodeGroup(e)
    ensures DecodeGroup(bs, off) == e
  {
    var g := EncodeGroup(e);
    SliceOfSlice(bs, off, off + GroupSize, 0, 4);
    SliceOfSlice(bs, off, off + GroupSize, 4, 8);
    SliceOfSlice(bs, off, off + GroupSize, 8, 12);
    SliceOfSlice(bs, off, off + GroupSize, 12, GroupSize);
    assert g[0..4] == EncodeInt32(e.runCount);
    assert g[4..8] == EncodeInt32(e.focusCount);
    assert g[8..12] == EncodeInt32(e.focusTime);
    assert g[12..GroupSize] == EncodePath(e.path);
    Int32RoundTrip(bs, off, e.runCount);
    Int32RoundTrip(bs, off + 4, e.focusCount);
    Int32RoundTrip(bs, off + 8, e.focusTime);
    PathRoundTrip(e.path);
  }

  /** NMAX group k (k = 0, 1, 2) starts at byte 16 + 532*k. */
  function GroupOffset(k: nat): (off: nat)
    requires k < 3
    ensures off + GroupSize <= AggregateSize
  {
    HeaderSize + GroupSize * k
  }

  /** struct.unpack('<4i3i520s3i520s3i520s', bs), which raises unless the
      blob is exactly 1612 bytes long. */
  function DecodeAggregate(bs: seq<byte>): (r: Option<Aggregate>)
    ensures r.Some? <==> |bs| == AggregateSize
    ensures r.Some? ==> && r.value.sessionId == Int32At(bs, 0) && r.value.totalLaunches == Int32At(bs, 4)
                        && r.value.totalSwitches == Int32At(bs, 8) && r.value.totalUserTime == Int32At(bs, 12)
    ensures r.Some? ==> forall k :: 0 <= k < 3 ==> r.value.nmax[k] == DecodeGroup(bs, GroupOffset(k))
  {
    if |bs| != AggregateSize then None
    else
      Some(Aggregate(
        Int32At(bs, 0), Int32At(bs, 4), Int32At(bs, 8), Int32At(bs, 12),
        [DecodeGroup(bs, GroupOffset(0)), DecodeGroup(bs, GroupOffset(1)), DecodeGroup(bs, GroupOffset(2))]))
  }

  predicate ValidAggregate(a: Aggregate)
  {
    forall k :: 0 <= k < 3 ==> ValidEntry(a.nmax[k])
  }

  function EncodeAggregate(a: Aggregate): (bs: seq<byte>)
    requires ValidAggregate(a)
    ensures |bs| == AggregateSize
  {
    EncodeInt32(a.sessionId) + EncodeInt32(a.totalLaunches)
    + EncodeInt32(a.totalSwitches) + EncodeInt32(a.totalUserTime)
    + EncodeGroup(a.nmax[0]) + EncodeGroup(a.nmax[1]) + EncodeGroup(a.nmax[2])
  }

  /** Decoding a 1612-byte blob built from known header and NMAX values
      returns those values, with the three NMAX entries in slot order. */
  lemma AggregateRoundTrip(a: Aggregate)
    requires ValidAggregate(a)
    ensures DecodeAggregate(EncodeAggregate(a)) == Some(a)
  {
    var e := EncodeAggregate(a);
    AggregateHeaderRoundTrip(a);
    AggregateGroupsRoundTrip(a);
    var d := DecodeAggregate(e).value;
    assert d.nmax[0] == a.nmax[0] && d.nmax[1] == a.nmax[1] && d.nmax[2] == a.nmax[2];
    assert d.nmax == a.nmax;
  }

  lemma AggregateHeaderRoundTrip(a: Aggregate)
    requires ValidAggregate(a)
    ensures var e := EncodeAggregate(a);
            && Int32At(e, 0) == a.sessionId && Int32At(e, 4) == a.totalLaunches
            && Int32At(e, 8) == a.totalSwitches && Int32At(e, 12) == a.totalUserTime
  {
    var e := EncodeAggregate(a);
    AggregateLayout(a);
    Int32RoundTrip(e, 0, a.sessionId);
    Int32RoundTrip(e, 4, a.totalLaunches);
    Int32RoundTrip(e, 8, a.totalSwitches);
    Int32RoundTrip(e, 12, a.totalUserTime);
  }

  lemma AggregateGroupsRoundTrip(a: Aggregate)
    requires ValidAggregate(a)
    ensures forall k :: 0 <= k < 3 ==> DecodeGroup(EncodeAggregate(a), GroupOffset(k)) == a.nmax[k]
  {
    forall k | 0 <= k < 3 ensures DecodeGroup(EncodeAggregate(a), GroupOffset(k)) == a.nmax[k] {
      AggregateGroupRoundTrip(a, k);
    }
  }

  lemma AggregateGroupRoundTrip(a: Aggregate, k: nat)
    requires ValidAggregate(a) && k < 3
    ensures DecodeGroup(EncodeAggregate(a), GroupOffset(k)) == a.nmax[k]
  {
    var e := EncodeAggregate(a);
    AggregateLayout(a);
    var off := GroupOffset(k);
    assert e[off..off + GroupSize] == EncodeGroup(a.nmax[k]);
    GroupRoundTrip(e, off, a.nmax[k]);
  }

  /** Where each field of an encoded aggregate lies. */
  lemma AggregateLayout(a: Aggregate)
    requires ValidAggregate(a)
    ensures var e := EncodeAggregate(a);
            && e[0..4] == EncodeInt32(a.sessionId)
            && e[4..8] == EncodeInt32(a.totalLaunches)
            && e[8..12] == EncodeInt32(a.totalSwitches)
            && e[12..16] == EncodeInt32(a.totalUserTime)
            && e[16..548] == EncodeGroup(a.nmax[0])
            && e[548..1080] == EncodeGroup(a.nmax[1])
            && e[1080..1612] == EncodeGroup(a.nmax[2])
  {
    var header := EncodeInt32(a.sessionId) + EncodeInt32(a.totalLaunches)
                  + EncodeInt32(a.totalSwitches) + EncodeInt32(a.totalUserTime);
    var g0, g1, g2 := EncodeGroup(a.nmax[0]), EncodeGroup(a.nmax[1]), EncodeGroup(a.nmax[2]);
    var e := EncodeAggregate(a);
    assert e == header + g0 + g1 + g2;
    assert e[0..16] == header;
    assert header[0..4] == EncodeInt32(a.sessionId);
    assert header[4..8] == EncodeInt32(a.totalLaunches);
    assert header[8..12] == EncodeInt32(a.totalSwitches);
    assert header[12..16] == EncodeInt32(a.totalUserTime);
    SliceOfSlice(e, 0, 16, 0, 4);
    SliceOfSlice(e, 0, 16, 4, 8);
    SliceOfSlice(e, 0, 16, 8, 12);
    SliceOfSlice(e, 0, 16, 12, 16);
    assert e[16..548] == g0;
    assert e[548..1080] == g1;
    assert e[1080..1612] == g2;
  }

  /** searchUEMESessioninList: the aggregate of the LAST entry for `guid`;
      `None` where the source raises because no entry matched. */
  function SearchSession(entries: seq<SessionEntry>, guid: string): (r: Option<Aggregate>)
    ensures r.None? <==> forall i :: 0 <= i < |entries| ==> entries[i].guid != guid
    ensures r.Some? ==> exists i :: 0 <= i < |entries| && entries[i] == SessionEntry(guid, r.value)
                                 && forall j :: i < j < |entries| ==> entries[j].guid != guid
  {
    if |entries| == 0 then None
    else
      var last := entries[|entries| - 1];
      if last.guid == guid then Some(last.aggregate)
      else SearchSession(entries[..|entries| - 1], guid)
  }

  /** The aggregate appended last for a GUID is the one found. */
  lemma LastAppendedWins(entries: seq<SessionEntry>, guid: string, a: Aggregate)
    ensures SearchSession(entries + [SessionEntry(guid, a)], guid) == Some(a)
  {
  }
}

=== FILE: stats.dfy ===
/** The derived statistics of parseValues (userassist_parser.py:134-166),
    over `real` as an abstraction of Python's float division. An average
    whose divisor is zero is 0, as the source's `except` branches set it;
    R0 and the usage percentage have no such guard, so a zero divisor makes
    them absent here, and the caller raises. */
module Stats {
  import opened Results
  import opened Session

  /** Total User Time / Total Launches, or 0 when there were no launches. */
  function LaunchAvg(a: Aggregate): (r: real)
    ensures a.totalLaunches == 0 ==> r == 0.0
    ensures a.totalLaunches != 0 ==> r * (a.totalLaunches as real) == a.totalUserTime as real
  {
    if a.totalLaunches == 0 then 0.0 else (a.totalUserTime as real) / (a.totalLaunches as real)
  }

  /** Total User Time / Total Switches, or 0 when there were no switches. */
  function SwitchAvg(a: Aggregate): (r: real)
    ensures a.totalSwitches == 0 ==> r == 0.0
    ensures a.totalSwitches != 0 ==> r * (a.totalSwitches as real) == a.totalUserTime as real
  {
    if a.totalSwitches == 0 then 0.0 else (a.totalUserTime as real) / (a.totalSwitches as real)
  }

  /** The N value of an application's counters under the session's averages. */
  function NValue(a: Aggregate, runCount: int, focusCount: int, focusTime: int): real
  {
    (runCount as real) * LaunchAvg(a) + (focusCount as real) * SwitchAvg(a) + focusTime as real
  }

  /** The N value of the most used application: always NMAX slot 2. */
  function MostUsedNValue(a: Aggregate): real
  {
    var m := a.nmax[2];
    NValue(a, m.runCount, m.focusCount, m.focusTime)
  }

  /** N value / N value of the most used application; absent when that is 0. */
  function R0Value(n: real, nmax: real): (r: Option<real>)
    ensures r.None? <==> nmax == 0.0
    ensures r.Some? ==> r.value * nmax == n
  {
    if nmax == 0.0 then None else Some(n / nmax)
  }

  /** N value / Total User Time; absent when the user time is 0. */
  function UsagePercentage(n: real, a: Aggregate): (r: Option<real>)
    ensures r.None? <==> a.totalUserTime == 0
    ensures r.Some? ==> r.value * (a.totalUserTime as real) == n
  {
    if a.totalUserTime == 0 then None else Some(n / (a.totalUserTime as real))
  }

  /** With no launches the launch term drops out of the N value. */
  lemma NValueWithoutLaunches(a: Aggregate, runCount: int, focusCount: int, focusTime: int)
    requires a.totalLaunches == 0
    ensures NValue(a, runCount, focusCount, focusTime) == (focusCount as real) * SwitchAvg(a) + focusTime as real
  {
  }

  /** With neither launches nor switches the N value is the focus time alone. */
  lemma NValueWithoutAverages(a: Aggregate, runCount: int, focusCount: int, focusTime: int)
    requires a.totalLaunches == 0 && a.totalSwitches == 0
    ensures NValue(a, runCount, focusCount, focusTime) == focusTime as real
  {
  }

  /** The most used N value reads NMAX slot 2 and the totals only: slots 0
      and 1, their paths and the session id never change it. */
  lemma MostUsedIgnoresOtherSlots(a: Aggregate, b: Aggregate)
    requires a.totalLaunches == b.totalLaunches && a.totalSwitches == b.totalSwitches
    requires a.totalUserTime == b.totalUserTime
    requires a.nmax[2].runCount == b.nmax[2].runCount
    requires a.nmax[2].focusCount == b.nmax[2].focusCount
    requires a.nmax[2].focusTime == b.nmax[2].focusTime
    ensures MostUsedNValue(a) == MostUsedNValue(b)
  {
  }

  /** An application whose counters equal those of NMAX slot 2 has R0 value 1. */
  lemma MostUsedHasUnitR0(a: Aggregate, runCount: int, focusCount: int, focusTime: int)
    requires runCount == a.nmax[2].runCount && focusCount == a.nmax[2].focusCount
    requires focusTime == a.nmax[2].focusTime
    requires MostUsedNValue(a) != 0.0
    ensures R0Value(NValue(a, runCount, focusCount, focusTime), MostUsedNValue(a)) == Some(1.0)
  {
    var n := MostUsedNValue(a);
    assert NValue(a, runCount, focusCount, focusTime) == n;
    assert n / n == 1.0;
  }
}
